=== FILE: README.md ===
# Distributed Mandelbrot renderer — a Dafny model of `createImage` and `writeImage`

The renderer draws a 28000 × 28000 Mandelbrot image. It does the work in MPI
processes. Rank 0 is the coordinator. It hands out chunks of 2000 columns
(`CHUNK_NUMBER_TOTAL = 28000 / 2000 = 14` chunks) to workers, ranks 1 .. nproc-1.
It merges each result into the master raster as the result arrives, from whichever
worker sent it (`MPI_ANY_SOURCE`). At the end it writes the raster as a 24-bit BMP file.

The model has three parts.

- **Scheduler** (modules `Scheduler`, `Protocol`).
  - The coordinator's fan-out and merge loop and each worker's loop form one
    sequential state machine.
  - The state holds the counters `chunksSent` and `responseChunks`, and a phase per
    worker.
  - Each worker has a FIFO queue per message tag it receives on: tag 99 (early
    termination), tag 3 (chunk number) and tag 100 (status reply).
  - Which pending result the coordinator takes next is a free choice made by the
    schedule.
  - For every schedule, the model proves:
    - the invariant holds;
    - every event lowers a measure, so every run is finite;
    - with at least one worker (`nproc ≥ 2`), an unfinished state always has an
      enabled event;
    - with at least one worker (`nproc ≥ 2`), a run that can go no further has merged
      every chunk exactly once;
    - the "not terminated" messages left on tag 99 are counted exactly.
- **Chunk geometry and merge indexing** (modules `Geometry`, `Raster`, `AsWritten`,
  `Merge`, `Pipeline`).
  - `AsWritten` models the worker's and the coordinator's loops with the code's own
    indexing. A store or load outside its buffer becomes a `Fault`, and the model
    proves where each loop first faults with the source's constants.
  - With the source's sizes, the coordinator's merge of each of the chunks 0 to 12
    completes. Every column it visits, `start` to `start + 2000` inclusive, then holds
    the received pixels, and the rest of the canvas is unchanged. The merge of the last
    chunk faults one pixel past the master raster.
  - `Merge` models the same loops with corrected indexing. Chunks own half-open column
    ranges clipped to `w`, and the chunk buffer is addressed with stride `CHUNK_SIZE`.
    The model proves that each chunk is painted and merged exactly into its own columns.
  - `Pipeline` ties the two halves together. With at least one worker (`nproc ≥ 2`),
    for every schedule that runs to a standstill, merging the results in their
    arrival order paints every pixel.
- **BMP serialiser** (module `Bmp`).
  - `writeImage` is modelled as a pure byte sequence: a 14-byte file header and a
    40-byte info header, then the rows from bottom to top, each padded to a multiple
    of four bytes.
  - Multi-byte fields are 32-bit little-endian.
  - The model proves that a reader gets back the dimensions, every pixel and the zero
    padding.

Pixel colours are a parameter, `colour: (int, int) -> Pixel`, standing for the
floating-point sampler.

Facts about the code that the model keeps:

- Chunks are **column** bands: the worker's `px` indexes x and its `py` indexes y.
- The chunk count `WIDTH_HEIGHT / CHUNK_SIZE` is a **floor** division. A partial last
  band would never be handed out (`Geometry.EndWithinExtent`).
- Both loops bound the columns **inclusively**, `px <= end` and `i <= nodeEndNumber`
  (`Geometry.SharedColumns`, `Geometry.LastChunkReachesExtent`).
- With a single process the coordinator waits forever
  (`Protocol.SingleProcessStalls`).
- After the fan-out, a worker gets a further chunk only when the coordinator re-arms
  it, and the coordinator re-arms at most `total - (nproc - 1)` times. So with more
  chunks than workers but fewer than twice as many, some worker ends the run with
  exactly one chunk (`Protocol.SomeWorkerGetsOneChunk`).

## Model

All source paths below are in `Project6_Mandelbrot/main.cpp`.

| member | source | states |
|---|---|---|
| Config.Clamp | Project6_Mandelbrot/main.cpp:143-144 | A canvas side above 30000 becomes 30000. Any other side is kept. The result never exceeds 30000 or the input. |
| Geometry.EndWithinExtent | Project6_Mandelbrot/main.cpp:22 | With the chunk count a floor division, every chunk that can be handed out ends within the canvas extent. |
| Geometry.LastChunkReachesExtent | Project6_Mandelbrot/main.cpp:265-266 | When the chunk width divides the extent, the last chunk's `end` is the extent itself, and the inclusive loop visits that column, one past the canvas. |
| Geometry.SharedColumns | Project6_Mandelbrot/main.cpp:278 | Under the inclusive bound, two chunks visit a common column exactly when they are neighbours, and then only at the lower chunk's `end` (both directions). |
| Geometry.ColumnHasOneOwner | Project6_Mandelbrot/main.cpp:212-213 | Under half-open bands clipped to the width, every canvas column has exactly one owning chunk, `x / CHUNK_SIZE`, when the chunks span the canvas. |
| Geometry.OwnerIsQuotient | Project6_Mandelbrot/main.cpp:212-213 | Chunk `idx` owns column `x` exactly when `x` is on the canvas and `x / CHUNK_SIZE == idx`. |
| Geometry.SourceGridFacts | Project6_Mandelbrot/main.cpp:269-271 | With the source constants there are 14 chunks. The last ends at column 28000. Every column a worker visits still indexes the 30000-entry `xs` table. |
| Scheduler.SendWork | Project6_Mandelbrot/main.cpp:119-125 | A work message queues a 0 on tag 99 and the chunk number on tag 3 for that worker only. It records the owner and bumps `chunksSent`. |
| Scheduler.SendTermination | Project6_Mandelbrot/main.cpp:127-131 | A termination message queues a 1 on tag 99 for that worker only. Its other queues, its phase, every other worker and all counters stay as they were. |
| Scheduler.FanOutFrom | Project6_Mandelbrot/main.cpp:173-181 | The fan-out loop from rank `i` on keeps the chunk count, the number of workers, the response count and the merged list. What it sends to each rank is stated by `Scheduler.FanOutAssigns`. |
| Scheduler.FanOut | Project6_Mandelbrot/main.cpp:173-181 | The fan-out over ranks 1 .. nproc-1 yields `nproc - 1` workers, nothing merged and no response counted. The assignment per rank is stated by `Scheduler.FanOutAssigns`. |
| Scheduler.FanOutAssigns | Project6_Mandelbrot/main.cpp:173-181 | After the fan-out, rank `r` holds chunk `r-1` when `r-1 < total`, and a termination otherwise. `chunksSent = min(nproc-1, total)` and nothing has been merged. |
| Scheduler.CollectStep | Project6_Mandelbrot/main.cpp:199-239 | One coordinator iteration counts one response, merges the collected chunk and replies with `chunksSent`. It re-arms that worker exactly when chunks remain, and no other worker changes. |
| Scheduler.AdvanceStep | Project6_Mandelbrot/main.cpp:253-301 | One worker action changes only that worker, which moves as `Scheduler.WorkerNext` says. The counters, the ownership table, the merge history and every other worker are unchanged. |
| Scheduler.WorkerNext | Project6_Mandelbrot/main.cpp:253-301 | Only a worker that has read nothing yet reads tag 99, and it never reads it again. A first 1 makes it exit before it computes. A status reply `< total` makes it wait for a chunk; any other reply makes it leave the loop. |
| Protocol.Run | Project6_Mandelbrot/main.cpp:188-305 | Applying a schedule event by event, failing at the first event that is not enabled, keeps the chunk count and the number of workers. `Protocol.RunHistory` adds that every counter and record only grows. |
| Protocol.FanOutEstablishes | Project6_Mandelbrot/main.cpp:173-181 | The invariant holds after the fan-out. The invariant covers the counter order, the ledger of merged and outstanding chunks, the per-phase mailboxes and the tag-99 bookkeeping. |
| Protocol.StepPreserves | Project6_Mandelbrot/main.cpp:188-305 | Every event preserves the invariant, whichever worker the coordinator takes next. Each handed-out chunk is either merged or outstanding at its owner, never both, and no chunk is merged twice. |
| Protocol.StepDecreases | Project6_Mandelbrot/main.cpp:188-305 | Every event strictly lowers a natural-number measure. |
| Protocol.EveryScheduleIsFinite | Project6_Mandelbrot/main.cpp:188-305 | No delivery order runs for more than `6*total + 5*(nproc-1)` events. |
| Protocol.SomeEventEnabled | Project6_Mandelbrot/main.cpp:188-305 | Deadlock freedom: with at least one worker (`nproc ≥ 2`), a state satisfying the invariant in which the coordinator or some worker is still in its loop always has an enabled event. |
| Protocol.Standstill | Project6_Mandelbrot/main.cpp:188-305 | With at least one worker (`nproc ≥ 2`), a state where no event is enabled is finished. Every chunk is merged once. Every worker has exited, and it exited early exactly when its rank exceeds the chunk count. `total - min(workers, total)` tag-99 messages stay unread. |
| Protocol.RunCompletes | Project6_Mandelbrot/main.cpp:167-305 | With at least one worker (`nproc ≥ 2`), from the fan-out, every run that can go no further has the counters at `total`, merged each chunk exactly once, and left exactly `total - min(nproc-1, total)` unread tag-99 messages. |
| Protocol.SomeWorkerGetsOneChunk | Project6_Mandelbrot/main.cpp:173-239 | With more chunks than workers but fewer than twice as many, every finished run leaves some worker with exactly one chunk. |
| Protocol.SingleProcessStalls | Project6_Mandelbrot/main.cpp:173-188 | With `nproc = 1` the fan-out sends nothing, the coordinator's loop guard still holds, and no event is enabled. |
| AsWritten.RenderColumn | Project6_Mandelbrot/main.cpp:290-293 | The worker's row loop over one column: a completed pass leaves the chunk buffer its size. Its stores and its first fault are stated by `AsWritten.RenderColumnStores` and `AsWritten.RenderColumnFaultsAt`. |
| AsWritten.RenderFrom | Project6_Mandelbrot/main.cpp:278-295 | The worker's column loop from `px` to `end` inclusive: a completed pass leaves the chunk buffer its size. |
| AsWritten.Render | Project6_Mandelbrot/main.cpp:278-295 | The worker's pass over chunk `idx`, columns `start .. end` inclusive: a completed pass leaves the chunk buffer its size. `AsWritten.WorkerOverrunsChunkBuffer` shows that no chunk completes at the source's sizes. |
| AsWritten.CopyColumn | Project6_Mandelbrot/main.cpp:219-225 | The coordinator's row loop over one column, load before store: a completed copy leaves the master raster its size. Its copies and first fault are stated by `AsWritten.CopyColumnCopies` and `AsWritten.CopyColumnFaultsAt`. |
| AsWritten.CopyFrom | Project6_Mandelbrot/main.cpp:218-226 | The coordinator's column loop from `i` to `end` inclusive: a completed merge leaves the master raster its size. `AsWritten.CopyFromCopies` says when it completes and what it stores. |
| AsWritten.CopyFromCopies | Project6_Mandelbrot/main.cpp:218-226 | When every row of columns `i..end` (`end < w`) loads and stores in bounds, the merge completes. Master pixel `(x, y)` of each of those columns then holds the received pixel at `(x - start) + y*w`, and every master pixel of any other column is unchanged. |
| AsWritten.MergeResult | Project6_Mandelbrot/main.cpp:212-226 | The coordinator's merge of chunk `idx`: a completed merge leaves the master raster its size. `AsWritten.MergeResultCompletes` shows that chunks 0 to 12 complete, and `AsWritten.LastChunkOverrunsMaster` shows that the last chunk does not. |
| AsWritten.MergeResultCompletes | Project6_Mandelbrot/main.cpp:193-226 | With a 28000 by 28000 master raster and a receive buffer of the same size, the merge of each chunk but the last completes. Every column from `2000*idx` to `2000*idx + 2000` inclusive then holds the pixels received for it, and every other column is unchanged. |
| AsWritten.RenderColumnFaultsAt | Project6_Mandelbrot/main.cpp:279-293 | The worker's column pass stores rows in order and first faults at the first row whose index leaves the chunk buffer. |
| AsWritten.RenderColumnStores | Project6_Mandelbrot/main.cpp:290-293 | After a worker's column pass completes, the chunk buffer holds `colour(px, y)` at `(px - start) + y*w` for every row it visited. |
| AsWritten.CopyColumnCopies | Project6_Mandelbrot/main.cpp:219-225 | A coordinator column copy whose every row loads and stores in bounds completes, and master pixel `(i, y)` then holds the received pixel at `(i - start) + y*w`. |
| AsWritten.CopyColumnFaultsAt | Project6_Mandelbrot/main.cpp:219-225 | A coordinator column copy faults at the first row whose master store is out of bounds. |
| AsWritten.CopyFromFaultsAt | Project6_Mandelbrot/main.cpp:218-226 | The coordinator's merge, over columns `start..end` inclusive, copies clean columns and stops at the first faulting one with that fault. |
| AsWritten.ChunkStoreInBounds | Project6_Mandelbrot/main.cpp:290-293 | With the source constants the chunk buffer is 168,000,000 bytes, and a worker's store for `(px, py)` fits in it exactly when `py < 2000`. |
| AsWritten.MasterStoreInBounds | Project6_Mandelbrot/main.cpp:220-224 | A master store for column `i <= w` of row `j` is in bounds exactly when `i < w` or `j` is not the last row. Column `w` of row `j` is pixel 0 of row `j+1`. |
| AsWritten.WorkerOverrunsChunkBuffer | Project6_Mandelbrot/main.cpp:244-295 | Every chunk's rendering overruns the `sizeOfImg` buffer at row 2000 of its first column. |
| AsWritten.ColumnRoundTrip | Project6_Mandelbrot/main.cpp:201-225 | A column the worker renders completely, received at the front of the coordinator's buffer and copied in bounds, lands in the master raster with `colour(px, y)` at `(px, y)` for every rendered row. |
| AsWritten.StoredRowsKeepPosition | Project6_Mandelbrot/main.cpp:201-295 | With the source constants, every canvas column (`px < 28000`) a chunk visits renders and merges its first 2000 rows without fault, and the master raster then holds `colour(px, y)` at its row-major position `px + y*28000`. |
| AsWritten.EndColumnOverwritesNextRow | Project6_Mandelbrot/main.cpp:212-226 | With the source constants, the chunk that visits column 28000 renders and merges that column's first 2000 rows without fault, and each stored row `y` lands on master pixel `(0, y+1)`: row `r`, `1 ≤ r ≤ 2000`, starts with `colour(28000, r-1)`. |
| AsWritten.LastChunkOverrunsMaster | Project6_Mandelbrot/main.cpp:212-226 | Merging the last chunk stores column 28000 of row 27999, one pixel past the master raster. |
| Merge.Stop | Project6_Mandelbrot/main.cpp:212-213 | The corrected end of chunk `idx` lies between its start and `start + CHUNK_SIZE`. A column lies in `[start, stop)` exactly when the chunk owns it. |
| Merge.RenderChunk | Project6_Mandelbrot/main.cpp:278-295 | The corrected worker fills a `CHUNK_SIZE × h` buffer. Every owned pixel `(x, y)` sits at the chunk-local index and holds `colour(x, y)`. |
| Merge.MergeChunk | Project6_Mandelbrot/main.cpp:212-226 | The corrected merge copies every owned pixel from the chunk buffer to `(i, j)` of the master raster and leaves every other pixel as it was. |
| Merge.Assemble | Project6_Mandelbrot/main.cpp:188-226 | With the corrected indexing, merging the chunks in any order, with repeats, paints every pixel with its colour once every chunk below `total` has arrived. |
| Pipeline.CreateImage | Project6_Mandelbrot/main.cpp:133-305 | With the corrected indexing and at least one worker (`nproc ≥ 2`), for every schedule that brings the protocol to a standstill, merging the results in their arrival order paints every pixel of the `w × h` canvas. |
| Bmp.ReadLE32OfLE32 | Project6_Mandelbrot/main.cpp:88-100 | Reading a stored 32-bit little-endian field gives the low 32 bits of the stored value. |
| Bmp.LE32OfReadLE32 | Project6_Mandelbrot/main.cpp:88-100 | Storing the value read from any four bytes gives back the same four bytes. |
| Bmp.Pad | Project6_Mandelbrot/main.cpp:112 | The row padding is below 4 and brings `3w` up to a multiple of 4. |
| Bmp.HeaderFields | Project6_Mandelbrot/main.cpp:84-100 | The headers are 54 bytes. They carry "BM", the size field at byte 2, the data offset 54 at byte 10, 40 at byte 14, the width at byte 18, the height at byte 22, one plane at byte 26 and 24 bits per pixel at byte 28. |
| Bmp.SerialiseOffset | Project6_Mandelbrot/main.cpp:84-85 | A reader accepts the written file, with its "BM" signature, 40-byte info header, one plane and 24 bits per pixel, and finds the pixel data at the offset 54 stored at byte 10. |
| Bmp.Serialise | Project6_Mandelbrot/main.cpp:82-116 | The file is the two headers and `h` padded rows: `54 + h * (3w + pad)` bytes, with the given size value at bytes 2..5. |
| Bmp.WriteImage | Project6_Mandelbrot/main.cpp:82-116 | `writeImage` as written: the same `54 + h * (3w + pad)` bytes, but the size field at bytes 2..5 holds `54 + 3wh`, without the padding. |
| Bmp.SerialiseLength | Project6_Mandelbrot/main.cpp:106-113 | The written file is `54 + h * (3w + pad)` bytes long. |
| Bmp.SerialiseDims | Project6_Mandelbrot/main.cpp:93-100 | A reader of the written file finds the width and height, for dimensions below 2^32. |
| Bmp.SerialiseRow | Project6_Mandelbrot/main.cpp:109-113 | File row `r` is image row `h-r-1` followed by its zero padding. |
| Bmp.SerialisePixel | Project6_Mandelbrot/main.cpp:109-111 | A reader that starts the pixel data at the stored offset finds pixel `(x, y)` of the raster at file row `h-1-y`, bytes `3x .. 3x+2`. |
| Bmp.SerialiseDecodes | Project6_Mandelbrot/main.cpp:109-113 | A reader of the written file gets back every pixel of the raster, and every row ends in zero padding. |
| Bmp.SizeFieldReads | Project6_Mandelbrot/main.cpp:88-91 | The size field reads back as the low 32 bits of the size written. |
| Bmp.SizeFieldShortfall | Project6_Mandelbrot/main.cpp:83 | The source's size field is `h * pad` short of the file length. It is right exactly when `h = 0` or the rows need no padding. |
| Bmp.SizeFieldOmitsPadding | Project6_Mandelbrot/main.cpp:83 | A 1 × 1 image is written as a 58-byte file whose size field says 57. |
| Bmp.FixedSizeFieldMatches | Project6_Mandelbrot/main.cpp:83 | With the size field set to the file length, a reader finds that length, modulo 2^32. |

## Left out

- Sampler: `iterationsToEscape`, `hue2rgb` and the `xs`/`ys` coordinate tables are
  floating point. Pixel colours are the parameter `colour`. Of the `xs` table, only
  the index bound is modelled (`Geometry.SourceGridFacts`).
- MPI set-up and teardown are left out: `MPI_Init`, `MPI_Comm_size`,
  `MPI_Comm_rank` and `MPI_Finalize`.
- The `MPI_Request` handles of `MPI_Isend` are left out. A send is modelled as an
  immediate enqueue on the receiver's queue for that tag.
- The worker's result messages on tags 2 and 3 are represented by the `AwaitReply`
  phase. The scheduler does not carry the pixel bytes. `Pipeline` renders and merges
  each arriving chunk through `Merge`.
- `malloc`/`free` are left out, including the per-iteration leak of `newImg`.
- File I/O is left out: `fopen` and `fwrite` become the byte sequence `Bmp.Serialise`.
- Timing and logging are left out: `When`, `fprintf`, and the returned execution time.
- `State` is left out apart from `w`, `h` and the clamp: centre, zoom and
  `maxIterations` only feed the sampler.
- Scheduler.FanOutAssigns, and the rest of the scheduler, treat the chunk count as a
  parameter `total >= 1`, not the constant 14. Worker rank `r` is index `r-1`.
- Merge.RenderChunk, Merge.MergeChunk, Merge.Assemble and Pipeline.CreateImage
  bound the rows by `h`, where the source uses `WIDTH_HEIGHT`. The two are equal
  with the source's canvas.
- AsWritten.CopyFromFaultsAt covers the coordinator's receive buffer. That buffer
  is `size` bytes, of which the message fills only the first `sizeOfImg`. The model
  treats every byte inside the buffer as received. It does not track which bytes
  are uninitialised. A load is checked before its store, as the source sequences
  them, but no load leaves a `size`-byte buffer, so the `RecvOverrun` fault is never
  shown to occur.
- AsWritten.MergeResultCompletes and AsWritten.CopyFromCopies state the copy in terms
  of the whole `size`-byte receive buffer. Of the 28000 rows they copy, only rows
  below 2000 lie in the `sizeOfImg` bytes the message fills. The rest are
  uninitialised bytes of `newImg`, and the model does not tell them apart.
- AsWritten.StoredRowsKeepPosition covers rows below 2000 only: the worker faults at
  row 2000, so no later row reaches the coordinator in the model. It covers the
  canvas columns `px < 28000`; column 28000 is `AsWritten.EndColumnOverwritesNextRow`.
- AsWritten.EndColumnOverwritesNextRow covers rows below 2000 only, for the same
  reason.
- `sizeOfImg` is modelled as an integer division. The source stores it in a `long
  double` and passes it as an `int` count. The value 168,000,000 is exact in both.
- Integer width is left out. The `int` and `long long` arithmetic of the loops does
  not overflow at the source's constants, so it is modelled with unbounded integers.
  The BMP fields keep their explicit 32-bit truncation.
- Negative canvas sides are left out: `Bmp` takes `w, h` as natural numbers, and
  `Config.Clamp` handles any integer.

## Findings

| source | as written | input that shows it | evidently intended | confidence | as-written member | corrected member |
|---|---|---|---|---|---|---|
| Project6_Mandelbrot/main.cpp:244-295 | The worker's buffer is `sizeOfImg = w*h*3/14` bytes: 2000 rows of full canvas width. It is indexed `(px-start) + py*w` for all 28000 rows. | Any chunk: the store for `(start, 2000)` is at byte 168,000,000, past the buffer. | A buffer of `CHUNK_SIZE` columns by `h` rows, indexed with stride `CHUNK_SIZE`. | not executed | AsWritten.WorkerOverrunsChunkBuffer | Merge.RenderChunk |
| Project6_Mandelbrot/main.cpp:212-226 | The merge runs `i` from `start` to `start + CHUNK_SIZE` inclusive. | Last chunk, `i = 28000`, `j = 27999`: the store is one pixel past the raster. For `j < 27999`, column `w` of row `j` overwrites pixel 0 of row `j+1` (`AsWritten.EndColumnOverwritesNextRow` shows it for the rows `j < 2000` the worker stores). | Half-open `[start, start + CHUNK_SIZE)` clipped to `w`. | not executed | AsWritten.LastChunkOverrunsMaster | Merge.MergeChunk |
| Project6_Mandelbrot/main.cpp:83 | The BMP size field is `54 + 3*w*h`, which leaves out the row padding. | `w = h = 1`: the file is 58 bytes and the field says 57. | `54 + h * (3w + pad)`. This equals the source's value whenever `3w` is a multiple of 4, as it is at `w = 28000`. | not executed | Bmp.SizeFieldOmitsPadding | Bmp.FixedSizeFieldMatches |

=== FILE: arith.dfy ===
/** Nonlinear arithmetic facts the offset proofs rest on. */
module Arith {

  /** `k * w` as `k` additions of `w`. Row offsets are built from this rather than from
      `*` so that a proof which only moves between neighbouring rows never hands the
      solver a product of two unknowns; `TimesIsProduct` recovers the product where a
      bound needs it. */
  function Times(k: nat, w: int): (r: int)
    ensures w >= 0 ==> r >= 0
  {
    if k == 0 then 0 else Times(k - 1, w) + w
  }

  lemma {:induction false} TimesIsProduct(k: nat, w: int)
    ensures Times(k, w) == k * w
  {
    if k > 0 {
      TimesIsProduct(k - 1, w);
    }
  }

  /** Row `r` ends no later than row `k` starts when `r < k`. */
  lemma {:induction false} TimesStrict(r: nat, k: nat, w: nat)
    requires r < k
    ensures Times(r, w) + w <= Times(k, w)
  {
    if r + 1 < k {
      TimesStrict(r, k - 1, w);
    }
  }

  lemma MulMonotone(a: nat, b: nat, c: nat)
    requires a <= b
    ensures a * c <= b * c
  {
  }

  lemma MulStrict(a: nat, b: nat, c: nat)
    requires a < b && c > 0
    ensures a * c + c <= b * c
  {
    MulMonotone(a + 1, b, c);
  }

  /** `size * (extent / size)` never exceeds `extent`. */
  lemma DivFloor(extent: nat, size: nat)
    requires size > 0
    ensures size * (extent / size) <= extent
    ensures extent % size == 0 ==> size * (extent / size) == extent
  {
  }

  /** Pixel `i + j*w` of a `w`-wide raster is in column `i` and row `j`. */
  lemma DivModUnique(i: nat, j: nat, w: nat)
    requires i < w
    ensures (i + j * w) / w == j
    ensures (i + j * w) % w == i
  {
    var p := i + j * w;
    var q := p / w;
    var r := p % w;
    assert p == q * w + r;
    if q < j {
      MulStrict(q, j, w);
    } else if q > j {
      MulStrict(j, q, w);
    }
  }

  /** The last pixel of a `w` by `h` raster has index `w*h - 1`. */
  lemma PixelIndexBound(i: nat, j: nat, w: nat, h: nat)
    requires i < w && j < h
    ensures i + j * w < w * h
  {
    MulStrict(j, h, w);
  }
}

=== FILE: aswritten.dfy ===
/** The worker's rendering loop and the coordinator's merge loop with the indexing of
    `createImage` as it stands: inclusive column bounds, rows up to `WIDTH_HEIGHT`, and a
    chunk buffer of `size / CHUNK_NUMBER_TOTAL` bytes addressed with the canvas width
    as row stride. A store or load outside its buffer is reported as a `Fault` instead
    of being performed. */
module AsWritten {
  import opened Config
  import opened Geometry
  import opened Raster
  import opened Wrappers

  datatype Fault =
    | ChunkOverrun(px: int, py: int)   // the worker stores past its chunk buffer
    | RecvOverrun(i: int, j: int)      // the coordinator loads past its receive buffer
    | MasterOverrun(i: int, j: int)    // the coordinator stores past the master raster

  /** `sizeOfImg`: the byte size of the chunk buffer and of every result message. */
  function ChunkBufferBytes(w: nat, h: nat): nat
  {
    (w * h * 3) / CHUNK_NUMBER_TOTAL
  }

  /** Pixel number of (i, j) in the master raster. */
  function MasterIndex(w: int, i: int, j: nat): int
  {
    Offset(w, i, j)
  }

  /** Pixel number of (px, py) in the chunk buffer of a chunk starting at `start`:
      the column is made chunk-relative but the row stride stays the canvas width. */
  function ChunkIndex(w: int, start: int, px: int, py: nat): int
  {
    Offset(w, px - start, py)
  }

  // ---------------------------------------------------------------------------
  // Worker: lines 278-295

  /** The worker's inner loop over rows `py .. rows-1` of column `px` (the source runs it
      up to `WIDTH_HEIGHT`). */
  function RenderColumn(
    buf: seq<byte>, colour: (int, int) -> Pixel, w: int, start: int, px: int, py: nat, rows: nat)
    : (r: Result<seq<byte>, Fault>)
    ensures r.Ok? ==> |r.value| == |buf|
    decreases rows - py
  {
    if py >= rows then Ok(buf)
    else
      var n := ChunkIndex(w, start, px, py);
      if !Holds(buf, n) then Err(ChunkOverrun(px, py))
      else RenderColumn(Put(buf, n, colour(px, py)), colour, w, start, px, py + 1, rows)
  }

  function RenderFrom(buf: seq<byte>, colour: (int, int) -> Pixel, w: int, start: int, end: int, px: int)
    : (r: Result<seq<byte>, Fault>)
    ensures r.Ok? ==> |r.value| == |buf|
    decreases end + 1 - px
  {
    if px > end then Ok(buf)
    else
      match RenderColumn(buf, colour, w, start, px, 0, WIDTH_HEIGHT)
      case Err(f) => Err(f)
      case Ok(b) => RenderFrom(b, colour, w, start, end, px + 1)
  }

  /** The worker's pass over chunk `idx`: columns start..end inclusive, every row. */
  function Render(
    buf: seq<byte>, colour: (int, int) -> Pixel, w: int, idx: nat): (r: Result<seq<byte>, Fault>)
    ensures r.Ok? ==> |r.value| == |buf|
  {
    RenderFrom(buf, colour, w, SourceGrid.Start(idx), SourceGrid.End(idx), SourceGrid.Start(idx))
  }

  /** A column pass that stays in bounds on rows `py .. stop-1` and leaves the buffer at
      row `stop` fails there. */
  lemma {:induction false} RenderColumnFaultsAt(
    buf: seq<byte>, colour: (int, int) -> Pixel, w: int, start: int, px: int, py: nat, stop: nat, rows: nat)
    requires py <= stop < rows
    requires forall y :: py <= y < stop ==> Holds(buf, ChunkIndex(w, start, px, y))
    requires !Holds(buf, ChunkIndex(w, start, px, stop))
    ensures RenderColumn(buf, colour, w, start, px, py, rows) == Err(ChunkOverrun(px, stop))
    decreases stop - py
  {
    if py < stop {
      var n := ChunkIndex(w, start, px, py);
      var b := Put(buf, n, colour(px, py));
      RenderColumnFaultsAt(b, colour, w, start, px, py + 1, stop, rows);
    }
  }

  /** A column pass whose every row is in bounds completes. */
  lemma {:induction false} RenderColumnSucceeds(
    buf: seq<byte>, colour: (int, int) -> Pixel, w: int, start: int, px: int, py: nat, rows: nat)
    requires forall y :: py <= y < rows ==> Holds(buf, ChunkIndex(w, start, px, y))
    ensures RenderColumn(buf, colour, w, start, px, py, rows).Ok?
    decreases rows - py
  {
    if py < rows {
      var n := ChunkIndex(w, start, px, py);
      RenderColumnSucceeds(Put(buf, n, colour(px, py)), colour, w, start, px, py + 1, rows);
    }
  }

  /** A column pass leaves alone every pixel below the first one it stores: its stores
      climb by the stride `w`. */
  lemma {:induction false} RenderColumnKeeps(
    buf: seq<byte>, colour: (int, int) -> Pixel, w: nat, start: int, px: int, py: nat, rows: nat, m: int)
    requires w > 0 && RenderColumn(buf, colour, w, start, px, py, rows).Ok?
    requires Holds(buf, m) && m < ChunkIndex(w, start, px, py)
    ensures Get(RenderColumn(buf, colour, w, start, px, py, rows).value, m) == Get(buf, m)
    decreases rows - py
  {
    if py < rows {
      var n := ChunkIndex(w, start, px, py);
      PutKeepsOthers(buf, n, colour(px, py), m);
      Arith.TimesStrict(py, py + 1, w);
      RenderColumnKeeps(Put(buf, n, colour(px, py)), colour, w, start, px, py + 1, rows, m);
    }
  }

  /** What a completed column pass stores: pixel (px, y) of the canvas at the buffer
      index `(px - start) + y*w` of every row it visits. */
  lemma {:induction false} RenderColumnStores(
    buf: seq<byte>, colour: (int, int) -> Pixel, w: nat, start: int, px: int, py: nat, rows: nat, y: nat)
    requires w > 0 && RenderColumn(buf, colour, w, start, px, py, rows).Ok? && py <= y < rows
    ensures Holds(RenderColumn(buf, colour, w, start, px, py, rows).value, ChunkIndex(w, start, px, y))
    ensures Get(RenderColumn(buf, colour, w, start, px, py, rows).value, ChunkIndex(w, start, px, y))
      == colour(px, y)
    decreases y - py
  {
    var n := ChunkIndex(w, start, px, py);
    var b := Put(buf, n, colour(px, py));
    if y == py {
      PutGet(buf, n, colour(px, py));
      Arith.TimesStrict(py, py + 1, w);
      RenderColumnKeeps(b, colour, w, start, px, py + 1, rows, n);
    } else {
      RenderColumnStores(b, colour, w, start, px, py + 1, rows, y);
    }
  }

  // ---------------------------------------------------------------------------
  // Coordinator: lines 212-226

  /** The coordinator's inner loop over rows `j .. rows-1` of column `i` (the source runs
      it up to `WIDTH_HEIGHT`). Each row first loads from the receive buffer, then stores
      into the master raster, so when both are out of bounds the load faults first. */
  function CopyColumn(img: seq<byte>, recv: seq<byte>, w: int, start: int, i: int, j: nat, rows: nat)
    : (r: Result<seq<byte>, Fault>)
    ensures r.Ok? ==> |r.value| == |img|
    decreases rows - j
  {
    if j >= rows then Ok(img)
    else
      var n := MasterIndex(w, i, j);
      var m := ChunkIndex(w, start, i, j);
      if !Holds(img, n) then Err(if Holds(recv, m) then MasterOverrun(i, j) else RecvOverrun(i, j))
      else if !Holds(recv, m) then Err(RecvOverrun(i, j))
      else CopyColumn(Put(img, n, Get(recv, m)), recv, w, start, i, j + 1, rows)
  }

  function CopyFrom(img: seq<byte>, recv: seq<byte>, w: int, start: int, end: int, i: int)
    : (r: Result<seq<byte>, Fault>)
    ensures r.Ok? ==> |r.value| == |img|
    decreases end + 1 - i, 1
  {
    if i > end then Ok(img)
    else NextColumn(CopyColumn(img, recv, w, start, i, 0, WIDTH_HEIGHT), |img|, recv, w, start, end, i)
  }

  /** After column `i`: stop at its fault, or go on with the raster it produced. */
  function NextColumn(
    c: Result<seq<byte>, Fault>, size: nat, recv: seq<byte>, w: int, start: int, end: int, i: int)
    : (r: Result<seq<byte>, Fault>)
    requires i <= end && (c.Ok? ==> |c.value| == size)
    ensures r.Ok? ==> |r.value| == size
    decreases end + 1 - i, 0
  {
    match c
    case Err(f) => Err(f)
    case Ok(m) => CopyFrom(m, recv, w, start, end, i + 1)
  }

  /** The coordinator's merge of the result `recv` of chunk `idx` into `img`. */
  function MergeResult(img: seq<byte>, recv: seq<byte>, w: int, idx: nat): (r: Result<seq<byte>, Fault>)
    ensures r.Ok? ==> |r.value| == |img|
  {
    CopyFrom(img, recv, w, SourceGrid.Start(idx), SourceGrid.End(idx), SourceGrid.Start(idx))
  }

  /** Rows `j .. stop-1` of column `i` are in bounds on both sides for buffers of
      `size` and `recvSize` bytes. */
  ghost predicate RowsFit(size: nat, recvSize: nat, w: int, start: int, i: int, j: nat, stop: nat)
  {
    forall y :: j <= y < stop ==>
      Fits(size, MasterIndex(w, i, y)) && Fits(recvSize, ChunkIndex(w, start, i, y))
  }

  /** Every row of columns `i .. last-1` is in bounds on both sides. */
  ghost predicate ColumnsFit(size: nat, recvSize: nat, w: int, start: int, i: int, last: int)
  {
    forall x :: i <= x < last ==> RowsFit(size, recvSize, w, start, x, 0, WIDTH_HEIGHT)
  }

  /** Rows `j .. rows-1` of a column are copied without a fault when every one of them is
      in bounds on both sides. */
  lemma {:induction false} CopyColumnSucceeds(
    img: seq<byte>, recv: seq<byte>, w: int, start: int, i: int, j: nat, rows: nat)
    requires RowsFit(|img|, |recv|, w, start, i, j, rows)
    ensures CopyColumn(img, recv, w, start, i, j, rows).Ok?
    decreases rows - j
  {
    if j < rows {
      var n := MasterIndex(w, i, j);
      var m := ChunkIndex(w, start, i, j);
      CopyColumnSucceeds(Put(img, n, Get(recv, m)), recv, w, start, i, j + 1, rows);
    }
  }

  /** A column copy leaves alone every master pixel below the first one it stores. */
  lemma {:induction false} CopyColumnKeeps(
    img: seq<byte>, recv: seq<byte>, w: nat, start: int, i: int, j: nat, rows: nat, k: int)
    requires w > 0 && CopyColumn(img, recv, w, start, i, j, rows).Ok?
    requires Holds(img, k) && k < MasterIndex(w, i, j)
    ensures Get(CopyColumn(img, recv, w, start, i, j, rows).value, k) == Get(img, k)
    decreases rows - j
  {
    if j < rows {
      var n := MasterIndex(w, i, j);
      var m := ChunkIndex(w, start, i, j);
      PutKeepsOthers(img, n, Get(recv, m), k);
      Arith.TimesStrict(j, j + 1, w);
      CopyColumnKeeps(Put(img, n, Get(recv, m)), recv, w, start, i, j + 1, rows, k);
    }
  }

  /** What a completed column copy stores: master pixel (i, y) receives the received
      pixel at `(i - start) + y*w`, for every row it visits. */
  lemma {:induction false} CopyColumnStores(
    img: seq<byte>, recv: seq<byte>, w: nat, start: int, i: int, j: nat, rows: nat, y: nat)
    requires w > 0 && CopyColumn(img, recv, w, start, i, j, rows).Ok? && j <= y < rows
    ensures Holds(recv, ChunkIndex(w, start, i, y))
    ensures Holds(CopyColumn(img, recv, w, start, i, j, rows).value, MasterIndex(w, i, y))
    ensures Get(CopyColumn(img, recv, w, start, i, j, rows).value, MasterIndex(w, i, y))
      == Get(recv, ChunkIndex(w, start, i, y))
    decreases y - j
  {
    var n := MasterIndex(w, i, j);
    var m := ChunkIndex(w, start, i, j);
    var next := Put(img, n, Get(recv, m));
    if y == j {
      PutGet(img, n, Get(recv, m));
      Arith.TimesStrict(j, j + 1, w);
      CopyColumnKeeps(next, recv, w, start, i, j + 1, rows, n);
    } else {
      CopyColumnStores(next, recv, w, start, i, j + 1, rows, y);
    }
  }

  /** A column whose every row is in bounds on both sides is copied completely: master
      pixel (i, y) ends up holding the received pixel at `(i - start) + y*w`. */
  lemma {:induction false} CopyColumnCopies(
    img: seq<byte>, recv: seq<byte>, w: nat, start: int, i: int, rows: nat)
    requires w > 0 && RowsFit(|img|, |recv|, w, start, i, 0, rows)
    ensures CopyColumn(img, recv, w, start, i, 0, rows).Ok?
    ensures forall y :: 0 <= y < rows ==>
      && Holds(CopyColumn(img, recv, w, start, i, 0, rows).value, MasterIndex(w, i, y))
      && Get(CopyColumn(img, recv, w, start, i, 0, rows).value, MasterIndex(w, i, y))
         == Get(recv, ChunkIndex(w, start, i, y))
  {
    CopyColumnSucceeds(img, recv, w, start, i, 0, rows);
    forall y | 0 <= y < rows
      ensures Holds(CopyColumn(img, recv, w, start, i, 0, rows).value, MasterIndex(w, i, y))
      ensures Get(CopyColumn(img, recv, w, start, i, 0, rows).value, MasterIndex(w, i, y))
        == Get(recv, ChunkIndex(w, start, i, y))
    {
      CopyColumnStores(img, recv, w, start, i, 0, rows, y);
    }
  }

  /** A column copy that stays in bounds on rows `j .. stop-1`, loads row `stop` and finds
      the master raster too short there fails at that row. */
  lemma {:induction false} CopyColumnFaultsAt(
    img: seq<byte>, recv: seq<byte>, w: int, start: int, i: int, j: nat, stop: nat, rows: nat)
    requires j <= stop < rows
    requires RowsFit(|img|, |recv|, w, start, i, j, stop)
    requires Holds(recv, ChunkIndex(w, start, i, stop)) && !Holds(img, MasterIndex(w, i, stop))
    ensures CopyColumn(img, recv, w, start, i, j, rows) == Err(MasterOverrun(i, stop))
    decreases stop - j
  {
    if j < stop {
      var n := MasterIndex(w, i, j);
      var m := ChunkIndex(w, start, i, j);
      CopyColumnFaultsAt(Put(img, n, Get(recv, m)), recv, w, start, i, j + 1, stop, rows);
    }
  }

  /** Columns `i .. last-1` copy cleanly; then column `last` faults at row `stop`. */
  lemma {:induction false} CopyFromFaultsAt(
    img: seq<byte>, recv: seq<byte>, w: int, start: int, end: int, i: int, last: int, stop: nat)
    requires i <= last <= end && stop < WIDTH_HEIGHT
    requires ColumnsFit(|img|, |recv|, w, start, i, last)
    requires RowsFit(|img|, |recv|, w, start, last, 0, stop)
    requires Holds(recv, ChunkIndex(w, start, last, stop)) && !Holds(img, MasterIndex(w, last, stop))
    ensures CopyFrom(img, recv, w, start, end, i) == Err(MasterOverrun(last, stop))
    decreases last - i
  {
    if i < last {
      ColumnsFitSplit(|img|, |recv|, w, start, i, last);
      var m := CopyFromSkips(img, recv, w, start, end, i);
      CopyFromFaultsAt(m, recv, w, start, end, i + 1, last, stop);
    } else {
      CopyFromFaultsHere(img, recv, w, start, end, i, stop);
    }
  }

  /** The first of a run of columns that fit fits, and so do the rest. */
  lemma ColumnsFitSplit(size: nat, recvSize: nat, w: int, start: int, i: int, last: int)
    requires i < last && ColumnsFit(size, recvSize, w, start, i, last)
    ensures RowsFit(size, recvSize, w, start, i, 0, WIDTH_HEIGHT)
    ensures ColumnsFit(size, recvSize, w, start, i + 1, last)
  {
  }

  /** A column that is in bounds throughout is copied and the loop goes on with the
      next column. */
  lemma {:induction false} CopyFromSkips(
    img: seq<byte>, recv: seq<byte>, w: int, start: int, end: int, i: int)
    returns (m: seq<byte>)
    requires i <= end && RowsFit(|img|, |recv|, w, start, i, 0, WIDTH_HEIGHT)
    ensures |m| == |img|
    ensures CopyFrom(img, recv, w, start, end, i) == CopyFrom(m, recv, w, start, end, i + 1)
  {
    CopyColumnSucceeds(img, recv, w, start, i, 0, WIDTH_HEIGHT);
    m := CopyFromUnfold(img, recv, w, start, end, i);
  }

  /** Column `i` faults at row `stop`, and so does the loop from column `i` on. */
  lemma {:induction false} CopyFromFaultsHere(
    img: seq<byte>, recv: seq<byte>, w: int, start: int, end: int, i: int, stop: nat)
    requires i <= end && stop < WIDTH_HEIGHT
    requires RowsFit(|img|, |recv|, w, start, i, 0, stop)
    requires Holds(recv, ChunkIndex(w, start, i, stop)) && !Holds(img, MasterIndex(w, i, stop))
    ensures CopyFrom(img, recv, w, start, end, i) == Err(MasterOverrun(i, stop))
  {
    CopyColumnFaultsAt(img, recv, w, start, i, 0, stop, WIDTH_HEIGHT);
    CopyFromStops(img, recv, w, start, end, i);
  }

  /** Past the last column the coordinator's loop leaves the raster as it is. */
  lemma CopyFromEnds(img: seq<byte>, recv: seq<byte>, w: int, start: int, end: int, i: int)
    requires i > end
    ensures CopyFrom(img, recv, w, start, end, i) == Ok(img)
  {
  }

  /** A column that faults ends the coordinator's loop with that fault. */
  lemma CopyFromStops(img: seq<byte>, recv: seq<byte>, w: int, start: int, end: int, i: int)
    requires i <= end && CopyColumn(img, recv, w, start, i, 0, WIDTH_HEIGHT).Err?
    ensures CopyFrom(img, recv, w, start, end, i) == CopyColumn(img, recv, w, start, i, 0, WIDTH_HEIGHT)
  {
  }

  /** One column of the coordinator's loop: a clean column hands its result to the rest. */
  lemma {:induction false} CopyFromUnfold(
    img: seq<byte>, recv: seq<byte>, w: int, start: int, end: int, i: int) returns (m: seq<byte>)
    requires i <= end && CopyColumn(img, recv, w, start, i, 0, WIDTH_HEIGHT).Ok?
    ensures m == CopyColumn(img, recv, w, start, i, 0, WIDTH_HEIGHT).value && |m| == |img|
    ensures CopyFrom(img, recv, w, start, end, i) == CopyFrom(m, recv, w, start, end, i + 1)
  {
    m := CopyColumn(img, recv, w, start, i, 0, WIDTH_HEIGHT).value;
  }

  /** A column copy leaves every master pixel of another canvas column as it was. */
  lemma {:induction false} CopyColumnLeaves(
    img: seq<byte>, recv: seq<byte>, w: nat, start: int, i: nat, j: nat, rows: nat, x: nat, y: nat)
    requires i < w && x < w && x != i
    requires CopyColumn(img, recv, w, start, i, j, rows).Ok? && Holds(img, MasterIndex(w, x, y))
    ensures Get(CopyColumn(img, recv, w, start, i, j, rows).value, MasterIndex(w, x, y))
      == Get(img, MasterIndex(w, x, y))
    decreases rows - j
  {
    if j < rows {
      var n := MasterIndex(w, i, j);
      var m := ChunkIndex(w, start, i, j);
      StoreElsewhere(img, w, i, j, Get(recv, m), x, y);
      CopyColumnLeaves(Put(img, n, Get(recv, m)), recv, w, start, i, j + 1, rows, x, y);
    }
  }

  /** Master pixel `(x, y)` of `r` holds the received pixel at `(x - start) + y*w`. */
  ghost predicate PixelCopied(r: seq<byte>, recv: seq<byte>, w: nat, start: int, x: int, y: nat)
  {
    && Holds(r, MasterIndex(w, x, y)) && Holds(recv, ChunkIndex(w, start, x, y))
    && Get(r, MasterIndex(w, x, y)) == Get(recv, ChunkIndex(w, start, x, y))
  }

  /** Every master pixel of the canvas columns `lo .. hi` holds its received pixel. */
  ghost predicate ColumnsCopied(r: seq<byte>, recv: seq<byte>, w: nat, start: int, lo: int, hi: int)
  {
    forall x: nat, y: nat :: lo <= x <= hi && y < WIDTH_HEIGHT ==> PixelCopied(r, recv, w, start, x, y)
  }

  /** `r` is `img` outside the canvas columns `lo .. hi`. */
  ghost predicate OthersKept(r: seq<byte>, img: seq<byte>, w: nat, lo: int, hi: int)
  {
    && |r| == |img|
    && forall x: nat, y: nat :: x < w && !(lo <= x <= hi) && Holds(img, MasterIndex(w, x, y)) ==>
         Get(r, MasterIndex(w, x, y)) == Get(img, MasterIndex(w, x, y))
  }

  /** The coordinator's merge over canvas columns `i .. end` whose every row is in bounds
      on both sides completes: each of those columns holds what was received for it, and
      every other canvas column is untouched. */
  lemma {:induction false} CopyFromCopies(
    img: seq<byte>, recv: seq<byte>, w: nat, start: int, end: int, i: int)
    requires end < w && ColumnsFit(|img|, |recv|, w, start, i, end + 1)
    ensures CopyFrom(img, recv, w, start, end, i).Ok?
    ensures ColumnsCopied(CopyFrom(img, recv, w, start, end, i).value, recv, w, start, i, end)
    ensures OthersKept(CopyFrom(img, recv, w, start, end, i).value, img, w, i, end)
  {
    var r := CopyFromCompletes(img, recv, w, start, end, i);
    forall x: nat, y: nat | i <= x <= end && y < WIDTH_HEIGHT
      ensures PixelCopied(r, recv, w, start, x, y)
    {
      var r' := CopyFromStores(img, recv, w, start, end, i, x, y);
    }
    forall x: nat, y: nat | x < w && !(i <= x <= end) && Holds(img, MasterIndex(w, x, y))
      ensures Get(r, MasterIndex(w, x, y)) == Get(img, MasterIndex(w, x, y))
    {
      var r' := CopyFromKeeps(img, recv, w, start, end, i, x, y);
    }
  }

  /** A merge whose columns all fit completes, with some raster `r`. */
  lemma {:induction false} CopyFromCompletes(
    img: seq<byte>, recv: seq<byte>, w: int, start: int, end: int, i: int)
    returns (r: seq<byte>)
    requires ColumnsFit(|img|, |recv|, w, start, i, end + 1)
    ensures CopyFrom(img, recv, w, start, end, i) == Ok(r)
    decreases end + 1 - i
  {
    if i <= end {
      var m := CopyFromFirst(img, recv, w, start, end, i);
      r := CopyFromCompletes(m, recv, w, start, end, i + 1);
    } else {
      r := img;
      CopyFromEnds(img, recv, w, start, end, i);
    }
  }

  /** The first column of a merge whose columns all fit is copied into some `m`, and the
      merge goes on from `m` with the next column. */
  lemma {:induction false} CopyFromFirst(
    img: seq<byte>, recv: seq<byte>, w: int, start: int, end: int, i: int)
    returns (m: seq<byte>)
    requires i <= end && ColumnsFit(|img|, |recv|, w, start, i, end + 1)
    ensures CopyFrom(img, recv, w, start, end, i) == CopyFrom(m, recv, w, start, end, i + 1)
    ensures ColumnsFit(|m|, |recv|, w, start, i + 1, end + 1)
  {
    ColumnsFitSplit(|img|, |recv|, w, start, i, end + 1);
    m := CopyFromSkips(img, recv, w, start, end, i);
  }

  /** `CopyFromFirst`, also saying that the copy keeps master pixel `(x, y)` of another
      canvas column. */
  lemma {:induction false} CopyFromFirstKeeps(
    img: seq<byte>, recv: seq<byte>, w: nat, start: int, end: int, i: int, x: nat, y: nat)
    returns (m: seq<byte>)
    requires i <= end < w && ColumnsFit(|img|, |recv|, w, start, i, end + 1)
    requires x < w && x != i && Holds(img, MasterIndex(w, x, y))
    ensures CopyFrom(img, recv, w, start, end, i) == CopyFrom(m, recv, w, start, end, i + 1)
    ensures ColumnsFit(|m|, |recv|, w, start, i + 1, end + 1)
    ensures Holds(m, MasterIndex(w, x, y)) && Get(m, MasterIndex(w, x, y)) == Get(img, MasterIndex(w, x, y))
  {
    ColumnsFitSplit(|img|, |recv|, w, start, i, end + 1);
    CopyColumnSucceeds(img, recv, w, start, i, 0, WIDTH_HEIGHT);
    m := CopyFromUnfold(img, recv, w, start, end, i);
    CopyColumnLeaves(img, recv, w, start, i, 0, WIDTH_HEIGHT, x, y);
  }

  /** `CopyFromFirst`, also saying that the copy stores the received pixel at master pixel
      `(i, y)`. */
  lemma {:induction false} CopyFromFirstStores(
    img: seq<byte>, recv: seq<byte>, w: nat, start: int, end: int, i: int, y: nat)
    returns (m: seq<byte>)
    requires 0 <= i <= end < w && ColumnsFit(|img|, |recv|, w, start, i, end + 1) && y < WIDTH_HEIGHT
    ensures CopyFrom(img, recv, w, start, end, i) == CopyFrom(m, recv, w, start, end, i + 1)
    ensures ColumnsFit(|m|, |recv|, w, start, i + 1, end + 1)
    ensures PixelCopied(m, recv, w, start, i, y)
  {
    ColumnsFitSplit(|img|, |recv|, w, start, i, end + 1);
    CopyColumnCopies(img, recv, w, start, i, WIDTH_HEIGHT);
    m := CopyFromUnfold(img, recv, w, start, end, i);
  }

  /** A merge whose columns all fit leaves every pixel outside its columns as it was. */
  lemma {:induction false} CopyFromKeeps(
    img: seq<byte>, recv: seq<byte>, w: nat, start: int, end: int, i: int, x: nat, y: nat)
    returns (r: seq<byte>)
    requires end < w && ColumnsFit(|img|, |recv|, w, start, i, end + 1)
    requires x < w && !(i <= x <= end) && Holds(img, MasterIndex(w, x, y))
    ensures CopyFrom(img, recv, w, start, end, i) == Ok(r)
    ensures Get(r, MasterIndex(w, x, y)) == Get(img, MasterIndex(w, x, y))
    decreases end + 1 - i
  {
    if i <= end {
      var m := CopyFromFirstKeeps(img, recv, w, start, end, i, x, y);
      r := CopyFromKeeps(m, recv, w, start, end, i + 1, x, y);
    } else {
      r := img;
      CopyFromEnds(img, recv, w, start, end, i);
    }
  }

  /** A merge whose columns all fit leaves, at each pixel of its columns, the bytes
      received for that pixel. */
  lemma {:induction false} CopyFromStores(
    img: seq<byte>, recv: seq<byte>, w: nat, start: int, end: int, i: int, x: int, y: nat)
    returns (r: seq<byte>)
    requires end < w && ColumnsFit(|img|, |recv|, w, start, i, end + 1)
    requires 0 <= i <= x <= end && y < WIDTH_HEIGHT
    ensures CopyFrom(img, recv, w, start, end, i) == Ok(r)
    ensures PixelCopied(r, recv, w, start, x, y)
    decreases end + 1 - i
  {
    if x == i {
      r := CopyFromStoresFirst(img, recv, w, start, end, i, y);
    } else {
      var m := CopyFromFirst(img, recv, w, start, end, i);
      r := CopyFromStores(m, recv, w, start, end, i + 1, x, y);
    }
  }

  /** `CopyFromStores` for a pixel of the merge's first column. */
  lemma {:induction false} CopyFromStoresFirst(
    img: seq<byte>, recv: seq<byte>, w: nat, start: int, end: int, i: int, y: nat)
    returns (r: seq<byte>)
    requires 0 <= i <= end < w && ColumnsFit(|img|, |recv|, w, start, i, end + 1) && y < WIDTH_HEIGHT
    ensures CopyFrom(img, recv, w, start, end, i) == Ok(r)
    ensures PixelCopied(r, recv, w, start, i, y)
  {
    var m := CopyFromFirstStores(img, recv, w, start, end, i, y);
    r := CopyFromKeeps(m, recv, w, start, end, i + 1, i, y);
  }

  // ---------------------------------------------------------------------------
  // What the source's constants make of these loops

  /** Bounds obligation of the worker's store: with the source's square canvas, the
      store for (px, py) fits in the `sizeOfImg`-byte chunk buffer exactly when
      `py < 2000`, whatever column of the chunk is being rendered. */
  lemma ChunkStoreInBounds(idx: nat, px: int, py: nat)
    requires SourceGrid.Visits(idx, px)
    ensures ChunkBufferBytes(WIDTH_HEIGHT, WIDTH_HEIGHT) == 168000000
    ensures Holds(seq(ChunkBufferBytes(WIDTH_HEIGHT, WIDTH_HEIGHT), _ => 0),
                  ChunkIndex(WIDTH_HEIGHT, SourceGrid.Start(idx), px, py))
            <==> py < CHUNK_SIZE
  {
    OffsetIsProduct(WIDTH_HEIGHT, px - SourceGrid.Start(idx), py);
  }

  /** Bounds obligation of the coordinator's store: in a `w` by `h` raster, the store for
      column `i <= w` of row `j < h` is in bounds exactly when `i < w` or `j` is not the
      last row; column `w` of row `j` is pixel 0 of row `j + 1`. */
  lemma MasterStoreInBounds(w: nat, h: nat, i: nat, j: nat)
    requires 0 < w && i <= w && j < h
    ensures Holds(seq(w * h * 3, _ => 0), MasterIndex(w, i, j)) <==> i < w || j + 1 < h
    ensures MasterIndex(w, w, j) == MasterIndex(w, 0, j + 1)
  {
    var n := MasterIndex(w, i, j);
    OffsetIsProduct(w, i, j);
    OffsetIsProduct(w, w, j);
    OffsetIsProduct(w, 0, j + 1);
    if i < w {
      Arith.PixelIndexBound(i, j, w, h);
    } else if j + 1 < h {
      Arith.PixelIndexBound(0, j + 1, w, h);
    } else {
      assert n == w * h;
    }
  }

  /** The code as written, with the source's square canvas, overruns the worker's chunk
      buffer on every chunk, at row 2000 of the chunk's first column, because the buffer
      holds 2000 canvas-wide rows while the loop stores 28000 rows with stride `w`. */
  lemma {:induction false} WorkerOverrunsChunkBuffer(buf: seq<byte>, colour: (int, int) -> Pixel, idx: nat)
    requires |buf| == ChunkBufferBytes(WIDTH_HEIGHT, WIDTH_HEIGHT)
    ensures Render(buf, colour, WIDTH_HEIGHT, idx) == Err(ChunkOverrun(SourceGrid.Start(idx), CHUNK_SIZE))
  {
    var start := SourceGrid.Start(idx);
    forall y | 0 <= y < CHUNK_SIZE ensures Holds(buf, ChunkIndex(WIDTH_HEIGHT, start, start, y)) {
      ChunkStoreInBounds(idx, start, y);
    }
    ChunkStoreInBounds(idx, start, CHUNK_SIZE);
    RenderColumnFaultsAt(buf, colour, WIDTH_HEIGHT, start, start, 0, CHUNK_SIZE, WIDTH_HEIGHT);
  }

  /** What survives of the as-written indexing: on the rows the worker stores before its
      overrun (`py < 2000`), every column of the canvas that a chunk visits reaches the
      master raster at its own row-major position `px + y*w`. The coordinator's receive
      buffer holds the sent bytes followed by the rest of its `size` bytes. Column 28000,
      which lies off the canvas, is `EndColumnOverwritesNextRow`. */
  lemma {:induction false} StoredRowsKeepPosition(
    buf: seq<byte>, rest: seq<byte>, img: seq<byte>, colour: (int, int) -> Pixel, idx: nat, px: int)
    requires |buf| == ChunkBufferBytes(WIDTH_HEIGHT, WIDTH_HEIGHT)
    requires |img| == WIDTH_HEIGHT * WIDTH_HEIGHT * 3 && |rest| == |img| - |buf|
    requires idx < CHUNK_NUMBER_TOTAL && SourceGrid.Visits(idx, px) && px < WIDTH_HEIGHT
    ensures var start := SourceGrid.Start(idx);
      var sent := RenderColumn(buf, colour, WIDTH_HEIGHT, start, px, 0, CHUNK_SIZE);
      && sent.Ok?
      && var merged := CopyColumn(img, sent.value + rest, WIDTH_HEIGHT, start, px, 0, CHUNK_SIZE);
      && merged.Ok?
      && forall y: nat :: y < CHUNK_SIZE ==>
           Holds(merged.value, px + y * WIDTH_HEIGHT)
           && Get(merged.value, px + y * WIDTH_HEIGHT) == colour(px, y)
  {
    var start := SourceGrid.Start(idx);
    var sent := RenderColumn(buf, colour, WIDTH_HEIGHT, start, px, 0, CHUNK_SIZE);
    VisitedColumnMerges(buf, rest, img, colour, idx, px);
    assert sent.Ok?;
    var merged := CopyColumn(img, sent.value + rest, WIDTH_HEIGHT, start, px, 0, CHUNK_SIZE);
    assert merged.Ok?;
    RowMajor(merged.value, colour, px);
  }

  /** The code as written merges column 28000, one past the canvas, into the next row: for
      the chunk that visits it (the last one, `LastChunkReachesExtent`), on the rows the
      worker stores (`y < 2000`), master pixel `(0, y+1)` ends up holding `colour(28000, y)`:
      row `r` of the canvas, `1 <= r <= 2000`, starts with `colour(28000, r - 1)`. */
  lemma {:induction false} EndColumnOverwritesNextRow(
    buf: seq<byte>, rest: seq<byte>, img: seq<byte>, colour: (int, int) -> Pixel, idx: nat)
    requires |buf| == ChunkBufferBytes(WIDTH_HEIGHT, WIDTH_HEIGHT)
    requires |img| == WIDTH_HEIGHT * WIDTH_HEIGHT * 3 && |rest| == |img| - |buf|
    requires idx < CHUNK_NUMBER_TOTAL && SourceGrid.Visits(idx, WIDTH_HEIGHT)
    ensures var start := SourceGrid.Start(idx);
      var sent := RenderColumn(buf, colour, WIDTH_HEIGHT, start, WIDTH_HEIGHT, 0, CHUNK_SIZE);
      && sent.Ok?
      && var merged := CopyColumn(img, sent.value + rest, WIDTH_HEIGHT, start, WIDTH_HEIGHT, 0, CHUNK_SIZE);
      && merged.Ok?
      && forall r: nat :: 0 < r <= CHUNK_SIZE ==>
           Holds(merged.value, MasterIndex(WIDTH_HEIGHT, 0, r))
           && Get(merged.value, MasterIndex(WIDTH_HEIGHT, 0, r)) == colour(WIDTH_HEIGHT, r - 1)
  {
    var start := SourceGrid.Start(idx);
    var sent := RenderColumn(buf, colour, WIDTH_HEIGHT, start, WIDTH_HEIGHT, 0, CHUNK_SIZE);
    VisitedColumnMerges(buf, rest, img, colour, idx, WIDTH_HEIGHT);
    assert sent.Ok?;
    var merged := CopyColumn(img, sent.value + rest, WIDTH_HEIGHT, start, WIDTH_HEIGHT, 0, CHUNK_SIZE);
    assert merged.Ok?;
    EndColumnWraps(merged.value, colour, WIDTH_HEIGHT, CHUNK_SIZE);
  }

  /** Rows below 2000 of a visited column render and merge without fault, each at the
      master index the coordinator computes for it. */
  lemma {:induction false} VisitedColumnMerges(
    buf: seq<byte>, rest: seq<byte>, img: seq<byte>, colour: (int, int) -> Pixel, idx: nat, px: int)
    requires |buf| == ChunkBufferBytes(WIDTH_HEIGHT, WIDTH_HEIGHT)
    requires |img| == WIDTH_HEIGHT * WIDTH_HEIGHT * 3 && |rest| == |img| - |buf|
    requires idx < CHUNK_NUMBER_TOTAL && SourceGrid.Visits(idx, px)
    ensures var start := SourceGrid.Start(idx);
      var sent := RenderColumn(buf, colour, WIDTH_HEIGHT, start, px, 0, CHUNK_SIZE);
      && sent.Ok?
      && var merged := CopyColumn(img, sent.value + rest, WIDTH_HEIGHT, start, px, 0, CHUNK_SIZE);
      && merged.Ok?
      && forall y :: 0 <= y < CHUNK_SIZE ==>
           Holds(merged.value, MasterIndex(WIDTH_HEIGHT, px, y))
           && Get(merged.value, MasterIndex(WIDTH_HEIGHT, px, y)) == colour(px, y)
  {
    var start := SourceGrid.Start(idx);
    VisitedRowsFit(|buf|, |img|, idx, px);
    RenderColumnSucceeds(buf, colour, WIDTH_HEIGHT, start, px, 0, CHUNK_SIZE);
    ColumnRoundTrip(buf, rest, img, colour, WIDTH_HEIGHT, start, px, CHUNK_SIZE);
  }

  /** Column `px` of row `y` sits at the coordinator's master index `px + y*w`, so a raster
      holding column `px` at master indices holds it at those row-major positions. */
  lemma {:induction false} RowMajor(m: seq<byte>, colour: (int, int) -> Pixel, px: int)
    requires forall y :: 0 <= y < CHUNK_SIZE ==>
      Holds(m, MasterIndex(WIDTH_HEIGHT, px, y)) && Get(m, MasterIndex(WIDTH_HEIGHT, px, y)) == colour(px, y)
    ensures forall y: nat :: y < CHUNK_SIZE ==>
      Holds(m, px + y * WIDTH_HEIGHT) && Get(m, px + y * WIDTH_HEIGHT) == colour(px, y)
  {
    forall y: nat | y < CHUNK_SIZE
      ensures Holds(m, px + y * WIDTH_HEIGHT) && Get(m, px + y * WIDTH_HEIGHT) == colour(px, y)
    {
      assert Holds(m, MasterIndex(WIDTH_HEIGHT, px, y));
      OffsetIsProduct(WIDTH_HEIGHT, px, y);
    }
  }

  /** Column `w` of row `y - 1` is column 0 of row `y`, so a raster holding column `w` at
      master indices holds it at the start of the following rows. */
  lemma {:induction false} EndColumnWraps(m: seq<byte>, colour: (int, int) -> Pixel, w: nat, rows: nat)
    requires 0 < w
    requires forall y :: 0 <= y < rows ==>
      Holds(m, MasterIndex(w, w, y)) && Get(m, MasterIndex(w, w, y)) == colour(w, y)
    ensures forall y: nat :: 0 < y <= rows ==>
      Holds(m, MasterIndex(w, 0, y)) && Get(m, MasterIndex(w, 0, y)) == colour(w, y - 1)
  {
    forall y: nat | 0 < y <= rows
      ensures Holds(m, MasterIndex(w, 0, y)) && Get(m, MasterIndex(w, 0, y)) == colour(w, y - 1)
    {
      assert Holds(m, MasterIndex(w, w, y - 1));
      MasterStoreInBounds(w, y, w, y - 1);
    }
  }

  /** On the first 2000 rows of a visited column, both the worker's store and the
      coordinator's store are in bounds. */
  lemma {:induction false} VisitedRowsFit(bufSize: nat, size: nat, idx: nat, px: int)
    requires bufSize == ChunkBufferBytes(WIDTH_HEIGHT, WIDTH_HEIGHT)
    requires size == WIDTH_HEIGHT * WIDTH_HEIGHT * 3
    requires idx < CHUNK_NUMBER_TOTAL && SourceGrid.Visits(idx, px)
    ensures forall y :: 0 <= y < CHUNK_SIZE ==>
      Fits(bufSize, ChunkIndex(WIDTH_HEIGHT, SourceGrid.Start(idx), px, y))
      && Fits(size, MasterIndex(WIDTH_HEIGHT, px, y))
  {
    EndWithinExtent(SourceGrid, idx);
    forall y | 0 <= y < CHUNK_SIZE
      ensures Fits(bufSize, ChunkIndex(WIDTH_HEIGHT, SourceGrid.Start(idx), px, y))
      ensures Fits(size, MasterIndex(WIDTH_HEIGHT, px, y))
    {
      ChunkStoreInBounds(idx, px, y);
      MasterStoreInBounds(WIDTH_HEIGHT, WIDTH_HEIGHT, px, y);
    }
  }

  /** A column the worker renders completely and the coordinator copies from the front of
      its receive buffer lands in the master raster with every rendered row in place. */
  lemma {:induction false} ColumnRoundTrip(
    buf: seq<byte>, rest: seq<byte>, img: seq<byte>, colour: (int, int) -> Pixel,
    w: nat, start: int, px: int, rows: nat)
    requires w > 0 && RenderColumn(buf, colour, w, start, px, 0, rows).Ok?
    requires forall y :: 0 <= y < rows ==> Fits(|img|, MasterIndex(w, px, y))
    ensures var sent := RenderColumn(buf, colour, w, start, px, 0, rows).value;
      var merged := CopyColumn(img, sent + rest, w, start, px, 0, rows);
      && merged.Ok?
      && forall y :: 0 <= y < rows ==>
           Holds(merged.value, MasterIndex(w, px, y))
           && Get(merged.value, MasterIndex(w, px, y)) == colour(px, y)
  {
    var b := RenderColumn(buf, colour, w, start, px, 0, rows).value;
    var recv := b + rest;
    forall y | 0 <= y < rows
      ensures Fits(|recv|, ChunkIndex(w, start, px, y))
      ensures Get(recv, ChunkIndex(w, start, px, y)) == colour(px, y)
    {
      RenderColumnStores(buf, colour, w, start, px, 0, rows, y);
      GetPrefix(b, rest, ChunkIndex(w, start, px, y));
    }
    CopyColumnCopies(img, recv, w, start, px, rows);
  }

  /** The code as written gives the coordinator's receive buffer the size of the whole
      raster (line 195), so no load leaves it; still, the merge of the last chunk stores
      column 28000 of the last row one pixel past the end of the 28000 x 28000 master
      raster, because the inclusive bound reaches column `w`. */
  lemma {:induction false} LastChunkOverrunsMaster(img: seq<byte>, recv: seq<byte>)
    requires |img| == WIDTH_HEIGHT * WIDTH_HEIGHT * 3 && |recv| == |img|
    ensures MergeResult(img, recv, WIDTH_HEIGHT, CHUNK_NUMBER_TOTAL - 1)
      == Err(MasterOverrun(WIDTH_HEIGHT, WIDTH_HEIGHT - 1))
  {
    var w := WIDTH_HEIGHT;
    var start := SourceGrid.Start(CHUNK_NUMBER_TOTAL - 1);
    var end := SourceGrid.End(CHUNK_NUMBER_TOTAL - 1);
    assert start == 26000 && end == 28000;
    forall x, y | start <= x < end && 0 <= y < w
      ensures Fits(|img|, MasterIndex(w, x, y)) && Fits(|recv|, ChunkIndex(w, start, x, y))
    {
      OffsetFits(w, w, x, y);
      OffsetFits(w, w, x - start, y);
    }
    forall y | 0 <= y < w - 1
      ensures Fits(|img|, MasterIndex(w, end, y)) && Fits(|recv|, ChunkIndex(w, start, end, y))
    {
      MasterStoreInBounds(w, w, end, y);
      OffsetFits(w, w, end - start, y);
    }
    MasterStoreInBounds(w, w, end, w - 1);
    OffsetFits(w, w, end - start, w - 1);
    CopyFromFaultsAt(img, recv, w, start, end, start, end, w - 1);
  }

  /** With the source's sizes, every chunk but the last merges without fault: its columns
      `start .. start + 2000` all lie on the canvas, so each ends up holding the received
      pixel at `(x - start) + y*28000`, and every other canvas column keeps what it held. */
  lemma {:induction false} MergeResultCompletes(img: seq<byte>, recv: seq<byte>, idx: nat)
    requires |img| == WIDTH_HEIGHT * WIDTH_HEIGHT * 3 && |recv| == |img|
    requires idx < CHUNK_NUMBER_TOTAL - 1
    ensures var r := MergeResult(img, recv, WIDTH_HEIGHT, idx);
      && r.Ok?
      && ColumnsCopied(
           r.value, recv, WIDTH_HEIGHT, SourceGrid.Start(idx), SourceGrid.Start(idx), SourceGrid.End(idx))
      && OthersKept(r.value, img, WIDTH_HEIGHT, SourceGrid.Start(idx), SourceGrid.End(idx))
  {
    EarlyChunkOnCanvas(idx);
    SourceColumnsFit(|img|, idx);
    var start := SourceGrid.Start(idx);
    CopyFromCopies(img, recv, WIDTH_HEIGHT, start, SourceGrid.End(idx), start);
  }

  /** Every chunk but the last ends before column 28000. */
  lemma EarlyChunkOnCanvas(idx: nat)
    requires idx < CHUNK_NUMBER_TOTAL - 1
    ensures SourceGrid.End(idx) < WIDTH_HEIGHT
  {
  }

  /** Every row of the columns a chunk visits loads and stores in bounds when both
      buffers hold the whole raster and the chunk ends before column 28000. */
  lemma {:induction false} SourceColumnsFit(size: nat, idx: nat)
    requires size == WIDTH_HEIGHT * WIDTH_HEIGHT * 3 && SourceGrid.End(idx) < WIDTH_HEIGHT
    ensures ColumnsFit(
      size, size, WIDTH_HEIGHT, SourceGrid.Start(idx), SourceGrid.Start(idx), SourceGrid.End(idx) + 1)
  {
    var w := WIDTH_HEIGHT;
    var start := SourceGrid.Start(idx);
    forall x | start <= x < SourceGrid.End(idx) + 1
      ensures RowsFit(size, size, w, start, x, 0, w)
    {
      forall y | 0 <= y < w
        ensures Fits(size, MasterIndex(w, x, y)) && Fits(size, ChunkIndex(w, start, x, y))
      {
        OffsetFits(w, w, x, y);
        OffsetFits(w, w, x - start, y);
      }
    }
  }
}

=== FILE: bmp.dfy ===
/** The 24-bit BMP file `writeImage` produces, as a byte sequence: a 14-byte file
    header, a 40-byte info header, then the raster's rows from the bottom one up, each
    padded with zero bytes to a multiple of four bytes. Multi-byte fields are 32-bit
    little-endian and take the low 32 bits of the value (two's complement for negative
    values), as the source's `(unsigned char)(v >> k)` stores do. */
module Bmp {
  import opened Arith
  import opened Raster
  import opened Wrappers

  const TWO_32: int := 0x1_0000_0000

  /** Bytes before the first pixel: the 14-byte file header and the 40-byte info header. */
  const HEADER_BYTES: nat := 54

  /** The four bytes of the low 32 bits of `v`, least significant first: byte `k` is
      the low byte of the value shifted right by `8k`. */
  function LE32(v: int): (r: seq<byte>)
    ensures |r| == 4
  {
    var u := v % TWO_32;
    var q1 := u / 0x100;
    var q2 := q1 / 0x100;
    var q3 := q2 / 0x100;
    [(u % 0x100) as byte, (q1 % 0x100) as byte, (q2 % 0x100) as byte, (q3 % 0x100) as byte]
  }

  /** The unsigned value of four little-endian bytes. */
  function ReadLE32(b: seq<byte>): (n: nat)
    requires |b| == 4
    ensures n < TWO_32
  {
    b[0] as nat + 0x100 * (b[1] as nat + 0x100 * (b[2] as nat + 0x100 * b[3] as nat))
  }

  /** Splitting off the low byte of `a + 256 * b`. */
  lemma LowByte(a: int, b: int)
    requires 0 <= a < 0x100
    ensures (a + 0x100 * b) % 0x100 == a && (a + 0x100 * b) / 0x100 == b
  {
  }

  /** Reading back a stored field gives the low 32 bits of what was stored. */
  lemma ReadLE32OfLE32(v: int)
    ensures ReadLE32(LE32(v)) == v % TWO_32
  {
    var u := v % TWO_32;
    var q1 := u / 0x100;
    var q2 := q1 / 0x100;
    var q3 := q2 / 0x100;
    assert u == u % 0x100 + 0x100 * q1;
    assert q1 == q1 % 0x100 + 0x100 * q2;
    assert q2 == q2 % 0x100 + 0x100 * q3;
    assert q3 < 0x100;
  }

  /** Storing a read field gives the same four bytes back. */
  lemma LE32OfReadLE32(b: seq<byte>)
    requires |b| == 4
    ensures LE32(ReadLE32(b)) == b
  {
    var b0, b1, b2, b3 := b[0] as int, b[1] as int, b[2] as int, b[3] as int;
    var q2 := b2 + 0x100 * b3;
    var q1 := b1 + 0x100 * q2;
    var u := b0 + 0x100 * q1;
    assert u == ReadLE32(b) && u % TWO_32 == u;
    LowByte(b0, q1);
    LowByte(b1, q2);
    LowByte(b2, b3);
    LowByte(b3, 0);
  }

  /** A file header whose size field holds `size`: magic "BM", the size, two reserved
      16-bit fields, and the pixel-data offset 54. */
  function SizedFileHeader(size: int): (r: seq<byte>)
    ensures |r| == 14
  {
    [66, 77] + LE32(size) + [0, 0, 0, 0] + LE32(HEADER_BYTES)
  }

  /** The size field as `writeImage` computes it: headers plus three bytes per pixel,
      without the row padding. */
  function SourceFileSize(w: int, h: int): int
  {
    HEADER_BYTES + 3 * w * h
  }

  /** The info header: its own size 40, the width, the height, one plane, 24 bits per
      pixel, and zeros for compression, image size, resolution and palette fields. */
  function InfoHeader(w: int, h: int): (r: seq<byte>)
    ensures |r| == 40
  {
    LE32(40) + LE32(w) + LE32(h) + [1, 0] + [24, 0] + seq(24, _ => 0)
  }

  /** Zero bytes after each row: `(4 - (3w) % 4) % 4`. */
  function Pad(w: nat): (r: nat)
    ensures r < 4 && (3 * w + r) % 4 == 0
  {
    (4 - (w * 3) % 4) % 4
  }

  /** Bytes per row in the file. */
  function RowBytes(w: nat): nat
  {
    3 * w + Pad(w)
  }

  /** Image row `y` lies inside a raster of `w * h * 3` bytes. */
  lemma RowFits(w: nat, h: nat, y: nat)
    requires y < h
    ensures 0 <= Offset(w, 0, y) && 3 * Offset(w, 0, y) + 3 * w <= w * h * 3
  {
    TimesIsProduct(y, w);
    if w > 0 {
      MulStrict(y, h, w);
    }
  }

  /** The `3w` bytes of image row `y`, which starts at byte `w*y*3` of the raster. */
  function ImageRow(img: seq<byte>, w: nat, h: nat, y: nat): (r: seq<byte>)
    requires y < h && w * h * 3 <= |img|
    ensures |r| == 3 * w
  {
    RowFits(w, h, y);
    img[3 * Offset(w, 0, y) .. 3 * Offset(w, 0, y) + 3 * w]
  }

  /** Byte `k` of image row `y` is byte `k` after the row's start in the raster. */
  lemma {:induction false} ImageRowAt(img: seq<byte>, w: nat, h: nat, y: nat, k: nat)
    requires y < h && w * h * 3 <= |img| && k < 3 * w
    ensures 3 * Offset(w, 0, y) + k < |img|
    ensures ImageRow(img, w, h, y)[k] == img[3 * Offset(w, 0, y) + k]
  {
    RowFits(w, h, y);
  }

  /** File row `i` (counting from the start of the pixel data): image row `h-i-1`
      followed by its padding. */
  function FileRow(img: seq<byte>, w: nat, h: nat, i: nat): (r: seq<byte>)
    requires i < h && w * h * 3 <= |img|
    ensures |r| == RowBytes(w)
  {
    ImageRow(img, w, h, h - i - 1) + seq(Pad(w), _ => 0)
  }

  /** The first `k` file rows. */
  function FileRows(img: seq<byte>, w: nat, h: nat, k: nat): (r: seq<byte>)
    requires k <= h && w * h * 3 <= |img|
    ensures |r| == Times(k, RowBytes(w))
  {
    if k == 0 then [] else FileRows(img, w, h, k - 1) + FileRow(img, w, h, k - 1)
  }

  /** Both headers, the file header's size field holding `size`, then every row
      bottom to top with its padding. */
  function Serialise(size: int, img: seq<byte>, w: nat, h: nat): (r: seq<byte>)
    requires w * h * 3 <= |img|
    ensures |r| == HEADER_BYTES + Times(h, RowBytes(w))
    ensures r[2..6] == LE32(size)
  {
    HeaderFields(size, w, h);
    SizedFileHeader(size) + InfoHeader(w, h) + FileRows(img, w, h, h)
  }

  /** `writeImage` as written: the size field is `SourceFileSize(w, h)`. */
  function WriteImage(img: seq<byte>, w: nat, h: nat): (r: seq<byte>)
    requires w * h * 3 <= |img|
    ensures |r| == HEADER_BYTES + Times(h, RowBytes(w))
    ensures r[2..6] == LE32(HEADER_BYTES + 3 * w * h)
  {
    Serialise(SourceFileSize(w, h), img, w, h)
  }

  // ---------------------------------------------------------------------------
  // Reading a file back

  /** Where the pixel data starts, as the file header's offset field at byte 10 says, for
      a file that carries the BMP magic, a 40-byte info header, one colour plane and 24
      bits per pixel; `None` for any other file. */
  function DataOffset(f: seq<byte>): Option<nat>
  {
    if |f| < HEADER_BYTES || f[0] != 66 || f[1] != 77 || ReadLE32(f[14..18]) != 40
       || f[26..28] != [1, 0] || f[28..30] != [24, 0]
    then None
    else Some(ReadLE32(f[10..14]))
  }

  /** Width and height of a file the reader accepts. */
  function ReadDims(f: seq<byte>): Option<(nat, nat)>
  {
    if DataOffset(f).None? then None
    else Some((ReadLE32(f[18..22]), ReadLE32(f[22..26])))
  }

  /** The pixel a reader finds at column `x` of image row `y` of a `w` by `h` file: file
      row `h-1-y` after the data offset, bytes `3x .. 3x+2`. */
  function PixelAt(f: seq<byte>, w: nat, h: nat, x: nat, y: nat): Option<Pixel>
    requires y < h
  {
    match DataOffset(f)
    case None => None
    case Some(d) =>
      var at := d + Times(h - 1 - y, RowBytes(w)) + 3 * x;
      if at + 2 < |f| then Some(Pixel(f[at], f[at + 1], f[at + 2])) else None
  }

  /** The bytes of file row `r` of a file whose rows are `RowBytes(w)` long. */
  function FileRowAt(f: seq<byte>, w: nat, r: nat): Option<seq<byte>>
  {
    match DataOffset(f)
    case None => None
    case Some(d) =>
      var at := d + Times(r, RowBytes(w));
      if at + RowBytes(w) <= |f| then Some(f[at .. at + RowBytes(w)]) else None
  }

  /** File row `r` sits at `Times(r, RowBytes(w))` among the first `k` rows. */
  lemma {:induction false} FileRowsAt(img: seq<byte>, w: nat, h: nat, k: nat, r: nat)
    requires r < k <= h && w * h * 3 <= |img|
    ensures Times(r, RowBytes(w)) + RowBytes(w) <= |FileRows(img, w, h, k)|
    ensures FileRows(img, w, h, k)[Times(r, RowBytes(w)) .. Times(r, RowBytes(w)) + RowBytes(w)]
      == FileRow(img, w, h, r)
  {
    var pre := FileRows(img, w, h, k - 1);
    var last := FileRow(img, w, h, k - 1);
    var at := Times(r, RowBytes(w));
    assert FileRows(img, w, h, k) == pre + last;
    if r < k - 1 {
      FileRowsAt(img, w, h, k - 1, r);
      TimesStrict(r, k - 1, RowBytes(w));
      SliceOfFront(pre, last, at, at + RowBytes(w));
    } else {
      SliceOfBack(pre, last);
    }
  }

  lemma SliceOfFront<T>(a: seq<T>, b: seq<T>, i: nat, j: nat)
    requires i <= j <= |a|
    ensures (a + b)[i .. j] == a[i .. j]
  {
  }

  lemma SliceOfBack<T>(a: seq<T>, b: seq<T>)
    ensures (a + b)[|a| .. |a| + |b|] == b
  {
  }

  /** Row `r` of a serialised file is file row `r` of the pixel data. */
  lemma {:induction false} SerialiseRow(size: int, img: seq<byte>, w: nat, h: nat, r: nat)
    requires r < h && w * h * 3 <= |img|
    ensures FileRowAt(Serialise(size, img, w, h), w, r) == Some(FileRow(img, w, h, r))
  {
    var rows := FileRows(img, w, h, h);
    SerialiseOffset(size, img, w, h);
    FileRowsAt(img, w, h, h, r);
    var at := Times(r, RowBytes(w));
    var f := Serialise(size, img, w, h);
    assert f == (SizedFileHeader(size) + InfoHeader(w, h)) + rows;
    assert f[HEADER_BYTES + at .. HEADER_BYTES + at + RowBytes(w)] == rows[at .. at + RowBytes(w)];
  }

  /** Where the fields a reader needs sit in the two headers. */
  lemma {:induction false} HeaderFields(size: int, w: int, h: int)
    ensures var hd := SizedFileHeader(size) + InfoHeader(w, h);
      && |hd| == HEADER_BYTES && hd[0] == 66 && hd[1] == 77 && hd[2..6] == LE32(size)
      && hd[10..14] == LE32(HEADER_BYTES)
      && hd[14..18] == LE32(40) && hd[18..22] == LE32(w) && hd[22..26] == LE32(h)
      && hd[26..28] == [1, 0] && hd[28..30] == [24, 0]
  {
    var fh := SizedFileHeader(size);
    var ih := InfoHeader(w, h);
    assert fh[10..14] == LE32(HEADER_BYTES);
    assert ih[0..4] == LE32(40) && ih[4..8] == LE32(w) && ih[8..12] == LE32(h);
    assert ih[12..14] == [1, 0] && ih[14..16] == [24, 0];
    assert (fh + ih)[2..6] == fh[2..6];
    assert (fh + ih)[10..14] == fh[10..14];
    assert (fh + ih)[14..18] == ih[0..4];
    assert (fh + ih)[18..22] == ih[4..8];
    assert (fh + ih)[22..26] == ih[8..12];
    assert (fh + ih)[26..28] == ih[12..14];
    assert (fh + ih)[28..30] == ih[14..16];
  }

  /** Whatever follows the two headers, a reader accepts the file and finds the pixel
      data right after the headers. */
  lemma {:induction false} DataOffsetOfHeaders(size: int, w: int, h: int, rest: seq<byte>)
    ensures DataOffset(SizedFileHeader(size) + InfoHeader(w, h) + rest) == Some(HEADER_BYTES)
  {
    HeaderFields(size, w, h);
    var hd := SizedFileHeader(size) + InfoHeader(w, h);
    var f := hd + rest;
    assert f[10..14] == hd[10..14] && f[14..18] == hd[14..18];
    assert f[26..28] == hd[26..28] && f[28..30] == hd[28..30];
    ReadLE32OfLE32(HEADER_BYTES);
    ReadLE32OfLE32(40);
  }

  /** A reader accepts a serialised file and finds its pixel data after the headers. */
  lemma {:induction false} SerialiseOffset(size: int, img: seq<byte>, w: nat, h: nat)
    requires w * h * 3 <= |img|
    ensures DataOffset(Serialise(size, img, w, h)) == Some(HEADER_BYTES)
  {
    DataOffsetOfHeaders(size, w, h, FileRows(img, w, h, h));
  }

  /** The file `writeImage` produces is `54 + h * RowBytes(w)` bytes long. */
  lemma {:induction false} SerialiseLength(size: int, img: seq<byte>, w: nat, h: nat)
    requires w * h * 3 <= |img|
    ensures |Serialise(size, img, w, h)| == HEADER_BYTES + h * RowBytes(w)
  {
    TimesIsProduct(h, RowBytes(w));
  }

  /** Whatever follows the two headers, a reader finds the dimensions they carry, for
      dimensions below 2^32. */
  lemma {:induction false} ReadDimsOfHeaders(size: int, w: nat, h: nat, rest: seq<byte>)
    requires w < TWO_32 && h < TWO_32
    ensures ReadDims(SizedFileHeader(size) + InfoHeader(w, h) + rest) == Some((w, h))
  {
    HeaderFields(size, w, h);
    DataOffsetOfHeaders(size, w, h, rest);
    var hd := SizedFileHeader(size) + InfoHeader(w, h);
    var f := hd + rest;
    var b, c := f[18..22], f[22..26];
    assert b == hd[18..22] && c == hd[22..26];
    ReadLE32OfLE32(w);
    ReadLE32OfLE32(h);
    assert ReadLE32(b) == w && ReadLE32(c) == h;
  }

  /** The dimensions of a serialised file read back as `w` and `h`. */
  lemma {:induction false} SerialiseDims(size: int, img: seq<byte>, w: nat, h: nat)
    requires w * h * 3 <= |img| && w < TWO_32 && h < TWO_32
    ensures ReadDims(Serialise(size, img, w, h)) == Some((w, h))
  {
    ReadDimsOfHeaders(size, w, h, FileRows(img, w, h, h));
  }

  /** Pixel (x, y) of the image is found at file row `h-1-y`, bytes `3x .. 3x+2`. */
  lemma {:induction false} SerialisePixel(size: int, img: seq<byte>, w: nat, h: nat, x: nat, y: nat)
    requires w * h * 3 <= |img| && x < w && y < h
    ensures Holds(img, Offset(w, x, y))
    ensures PixelAt(Serialise(size, img, w, h), w, h, x, y) == Some(Get(img, Offset(w, x, y)))
  {
    SerialiseRow(size, img, w, h, h - 1 - y);
    PixelInRow(Serialise(size, img, w, h), w, h, x, y);
    FileRowPixel(img, w, h, x, y);
  }

  /** Bytes `3x .. 3x+2` of the file row that holds image row `y` are pixel (x, y). */
  lemma {:induction false} FileRowPixel(img: seq<byte>, w: nat, h: nat, x: nat, y: nat)
    requires w * h * 3 <= |img| && x < w && y < h
    ensures Holds(img, Offset(w, x, y))
    ensures var row := FileRow(img, w, h, h - 1 - y);
      Pixel(row[3 * x], row[3 * x + 1], row[3 * x + 2]) == Get(img, Offset(w, x, y))
  {
    OffsetFits(w, h, x, y);
    var row := FileRow(img, w, h, h - 1 - y);
    var pixels := ImageRow(img, w, h, y);
    assert row == pixels + seq(Pad(w), _ => 0);
    assert 3 * Offset(w, x, y) == 3 * Offset(w, 0, y) + 3 * x;
    ImageRowAt(img, w, h, y, 3 * x);
    ImageRowAt(img, w, h, y, 3 * x + 1);
    ImageRowAt(img, w, h, y, 3 * x + 2);
  }

  /** A reader's pixel (x, y) is bytes `3x .. 3x+2` of file row `h-1-y`. */
  lemma PixelInRow(f: seq<byte>, w: nat, h: nat, x: nat, y: nat)
    requires x < w && y < h && FileRowAt(f, w, h - 1 - y).Some?
    ensures var row := FileRowAt(f, w, h - 1 - y).value;
      && 3 * x + 2 < |row|
      && PixelAt(f, w, h, x, y) == Some(Pixel(row[3 * x], row[3 * x + 1], row[3 * x + 2]))
  {
  }

  /** What a reader sees in the pixel data of a serialised file: pixel
      (x, y) of the image is found at file row `h-1-y`, and every row ends in zero
      padding. */
  lemma {:induction false} SerialiseDecodes(size: int, img: seq<byte>, w: nat, h: nat)
    requires w * h * 3 <= |img|
    ensures forall x, y :: 0 <= x < w && 0 <= y < h ==>
      && Holds(img, Offset(w, x, y))
      && PixelAt(Serialise(size, img, w, h), w, h, x, y) == Some(Get(img, Offset(w, x, y)))
    ensures forall r :: 0 <= r < h ==>
      && FileRowAt(Serialise(size, img, w, h), w, r).Some?
      && FileRowAt(Serialise(size, img, w, h), w, r).value[3 * w..] == seq(Pad(w), _ => 0)
  {
    forall x, y | 0 <= x < w && 0 <= y < h
      ensures Holds(img, Offset(w, x, y))
      ensures PixelAt(Serialise(size, img, w, h), w, h, x, y) == Some(Get(img, Offset(w, x, y)))
    {
      SerialisePixel(size, img, w, h, x, y);
    }
    forall r | 0 <= r < h
      ensures FileRowAt(Serialise(size, img, w, h), w, r).Some?
      ensures FileRowAt(Serialise(size, img, w, h), w, r).value[3 * w..] == seq(Pad(w), _ => 0)
    {
      SerialiseRow(size, img, w, h, r);
    }
  }

  // ---------------------------------------------------------------------------
  // The size field

  /** The length the file actually has: both headers and `h` padded rows. */
  function FileSize(w: nat, h: nat): nat
  {
    HEADER_BYTES + h * RowBytes(w)
  }

  /** `writeImage` with the size field holding the file's actual length. */
  function WriteImageFixed(img: seq<byte>, w: nat, h: nat): seq<byte>
    requires w * h * 3 <= |img|
  {
    Serialise(FileSize(w, h), img, w, h)
  }

  /** The size field of a serialised file reads back as the low 32 bits of `size`. */
  lemma {:induction false} SizeFieldReads(size: int, img: seq<byte>, w: nat, h: nat)
    requires w * h * 3 <= |img|
    ensures |Serialise(size, img, w, h)| >= HEADER_BYTES
    ensures ReadLE32(Serialise(size, img, w, h)[2..6]) == size % TWO_32
  {
    HeaderFields(size, w, h);
    var hd := SizedFileHeader(size) + InfoHeader(w, h);
    var f := Serialise(size, img, w, h);
    assert f[..54] == hd;
    assert f[2..6] == hd[2..6];
    ReadLE32OfLE32(size);
  }

  /** The source's size field falls short of the file by the padding of every row, so it
      is right exactly when there are no rows or the rows need no padding. */
  lemma SizeFieldShortfall(w: nat, h: nat)
    ensures FileSize(w, h) - SourceFileSize(w, h) == h * Pad(w)
    ensures SourceFileSize(w, h) == FileSize(w, h) <==> h == 0 || Pad(w) == 0
  {
  }

  /** The code as written stores a 1 x 1 image as a 58-byte file whose size field
      says 57, because the size omits the row's one padding byte. */
  lemma SizeFieldOmitsPadding(img: seq<byte>)
    requires |img| >= 3
    ensures |WriteImage(img, 1, 1)| == 58
    ensures ReadLE32(WriteImage(img, 1, 1)[2..6]) == 57
  {
    SerialiseLength(SourceFileSize(1, 1), img, 1, 1);
    SizeFieldReads(SourceFileSize(1, 1), img, 1, 1);
  }

  /** With the size field set to the file's length, a reader finds that length in it
      (modulo 2^32, the field's width). */
  lemma FixedSizeFieldMatches(img: seq<byte>, w: nat, h: nat)
    requires w * h * 3 <= |img|
    ensures ReadLE32(WriteImageFixed(img, w, h)[2..6]) == |WriteImageFixed(img, w, h)| % TWO_32
  {
    SerialiseLength(FileSize(w, h), img, w, h);
    SizeFieldReads(FileSize(w, h), img, w, h);
  }
}

=== FILE: config.dfy ===
/** The compile-time constants of the renderer and the canvas clamp of its `State`. */
module Config {

  /** Largest canvas side the renderer accepts; also the length of its coordinate tables. */
  const MAX_WIDTH_HEIGHT: nat := 30000

  /** Side of the square canvas; also the bound of every per-row loop. */
  const WIDTH_HEIGHT: nat := 28000

  /** Width in columns of one chunk of work. */
  const CHUNK_SIZE: nat := 2000

  /** Number of chunks: floor division of the canvas side by the chunk width. */
  const CHUNK_NUMBER_TOTAL: nat := WIDTH_HEIGHT / CHUNK_SIZE

  /** The clamp `createImage` applies to each canvas side before allocating the raster. */
  function Clamp(d: int): (r: int)
    ensures r <= MAX_WIDTH_HEIGHT
    ensures r <= d
    ensures r == d || r == MAX_WIDTH_HEIGHT
    ensures d <= MAX_WIDTH_HEIGHT ==> r == d
  {
    if d > MAX_WIDTH_HEIGHT then MAX_WIDTH_HEIGHT else d
  }
}

=== FILE: geometry.dfy ===
/** The chunk grid: which canvas columns chunk `idx` covers.

    `createImage` cuts the canvas into column bands (the worker's `px` runs over x):
    chunk `idx` starts at column `CHUNK_SIZE * idx` and both the worker's and the
    coordinator's loops run up to `start + CHUNK_SIZE` INCLUSIVE. The number of chunks
    is the floor of `WIDTH_HEIGHT / CHUNK_SIZE`. */
module Geometry {
  import opened Config
  import opened Arith

  /** `extent` columns cut into chunks of `size` columns. */
  datatype Grid = Grid(extent: nat, size: nat) {

    /** Number of chunks: floor division, so a partial last band is never handed out. */
    function Total(): nat
      requires size > 0
    {
      extent / size
    }

    function Start(idx: nat): nat
    {
      size * idx
    }

    function End(idx: nat): nat
    {
      Start(idx) + size
    }

    /** Column `x` is visited by chunk `idx`'s loops (inclusive upper bound). */
    predicate Visits(idx: nat, x: int)
    {
      Start(idx) <= x <= End(idx)
    }

    /** Column `x` belongs to chunk `idx` in the half-open reading `[start, end)`
        clipped to a canvas of width `w`. */
    predicate Owns(w: nat, idx: nat, x: int)
    {
      Start(idx) <= x < End(idx) && x < w
    }
  }

  /** The grid of the source: 28000 columns in chunks of 2000. */
  const SourceGrid: Grid := Grid(WIDTH_HEIGHT, CHUNK_SIZE)

  /** Every chunk the scheduler can hand out ends inside the extent: floor division
      never produces a chunk reaching past `extent`. */
  lemma EndWithinExtent(g: Grid, idx: nat)
    requires g.size > 0 && idx < g.Total()
    ensures g.End(idx) <= g.extent
  {
    MulStrict(idx, g.Total(), g.size);
    DivFloor(g.extent, g.size);
  }

  /** When the chunk width divides the extent, the inclusive loops of the last chunk
      reach column `extent` itself, one past the last column of the canvas. */
  lemma LastChunkReachesExtent(g: Grid)
    requires g.size > 0 && g.extent % g.size == 0 && g.Total() > 0
    ensures g.End(g.Total() - 1) == g.extent
    ensures g.Visits(g.Total() - 1, g.extent)
  {
    DivFloor(g.extent, g.size);
  }

  /** Under the inclusive bound, two chunks visit a common column exactly when they are
      neighbours, and then the only shared column is the end of the lower one. */
  lemma SharedColumns(g: Grid, a: nat, b: nat, x: int)
    requires g.size > 0 && a < b
    ensures g.Visits(a, x) && g.Visits(b, x) <==> b == a + 1 && x == g.End(a)
  {
    if b > a + 1 {
      MulStrict(a + 1, b, g.size);
    }
  }

  /** Under the half-open reading clipped to `w`, every column of the canvas belongs to
      exactly one chunk, namely `x / size`, provided the chunks span the canvas. */
  lemma ColumnHasOneOwner(g: Grid, w: nat, x: nat)
    requires g.size > 0 && x < w && w <= g.size * g.Total()
    ensures x / g.size < g.Total() && g.Owns(w, x / g.size, x)
    ensures forall idx: nat :: g.Owns(w, idx, x) ==> idx == x / g.size
  {
    var q := x / g.size;
    DivModUnique(x % g.size, q, g.size);
    assert g.size * q <= x < g.size * q + g.size;
    if q >= g.Total() {
      MulMonotone(g.Total(), q, g.size);
    }
    forall idx: nat | g.Owns(w, idx, x) ensures idx == q {
      if idx < q {
        MulStrict(idx, q, g.size);
      } else if idx > q {
        MulStrict(q, idx, g.size);
      }
    }
  }

  /** Under the half-open reading clipped to `w`, chunk `idx` owns column `x` exactly
      when `x` is on the canvas and `idx` is `x / size`. */
  lemma OwnerIsQuotient(g: Grid, w: nat, idx: nat, x: nat)
    requires g.size > 0
    ensures g.Owns(w, idx, x) <==> x < w && x / g.size == idx
  {
    var q := x / g.size;
    DivModUnique(x % g.size, q, g.size);
    if idx < q {
      MulStrict(idx, q, g.size);
    } else if idx > q {
      MulStrict(q, idx, g.size);
    }
  }

  /** The source's constants: 14 chunks; the last one's inclusive end is column 28000,
      which is `WIDTH_HEIGHT` itself; every visited column still indexes the
      `MAX_WIDTH_HEIGHT`-long coordinate table. */
  lemma SourceGridFacts()
    ensures SourceGrid.Total() == CHUNK_NUMBER_TOTAL == 14
    ensures SourceGrid.End(CHUNK_NUMBER_TOTAL - 1) == WIDTH_HEIGHT
    ensures forall idx: nat, x: int :: idx < CHUNK_NUMBER_TOTAL && SourceGrid.Visits(idx, x) ==>
      0 <= x < MAX_WIDTH_HEIGHT
  {
    LastChunkReachesExtent(SourceGrid);
    forall idx: nat | idx < CHUNK_NUMBER_TOTAL ensures SourceGrid.End(idx) <= WIDTH_HEIGHT {
      EndWithinExtent(SourceGrid, idx);
    }
  }
}

=== FILE: merge.dfy ===
/** The render-and-merge pipeline with the bounds the column bands call for: chunk `idx`
    owns the half-open columns `[CHUNK_SIZE*idx, CHUNK_SIZE*idx + CHUNK_SIZE)` clipped to
    the canvas width, the worker's buffer holds `CHUNK_SIZE` columns by `h` rows and is
    addressed with stride `CHUNK_SIZE`, and the coordinator copies exactly the owned
    columns into the master raster at `i + j*w`. */
module Merge {
  import opened Config
  import opened Arith
  import opened Geometry
  import opened Raster

  /** The chunk grid of a canvas `w` columns wide. */
  function Bands(w: nat): Grid
  {
    Grid(w, CHUNK_SIZE)
  }

  /** Bytes of one chunk buffer: `CHUNK_SIZE` columns of `h` rows of three bytes. */
  function ChunkBytes(h: nat): nat
  {
    CHUNK_SIZE * h * 3
  }

  /** Pixel number of canvas pixel (px, py) inside the buffer of the chunk starting at
      column `start`. */
  function LocalIndex(start: int, px: int, py: nat): int
  {
    Offset(CHUNK_SIZE, px - start, py)
  }

  /** One past the last column chunk `idx` owns on a canvas `w` wide (never below the
      chunk's start). */
  function Stop(w: nat, idx: nat): (r: nat)
    ensures Bands(w).Start(idx) <= r <= Bands(w).End(idx)
    ensures forall x :: Bands(w).Owns(w, idx, x) <==> Bands(w).Start(idx) <= x < r
  {
    var g := Bands(w);
    if w <= g.Start(idx) then g.Start(idx) else if w < g.End(idx) then w else g.End(idx)
  }

  /** Pixel (x, y) of the chunk buffer holds the colour of canvas pixel (x, y). */
  ghost predicate Painted(buf: seq<byte>, colour: (int, int) -> Pixel, start: int, x: int, y: nat)
  {
    Holds(buf, LocalIndex(start, x, y)) && Get(buf, LocalIndex(start, x, y)) == colour(x, y)
  }

  /** Pixel (i, j) of the master raster holds the colour of canvas pixel (i, j). */
  ghost predicate Shows(img: seq<byte>, colour: (int, int) -> Pixel, w: int, i: int, j: nat)
  {
    Holds(img, Offset(w, i, j)) && Get(img, Offset(w, i, j)) == colour(i, j)
  }

  /** Pixel (i, j) of `out` was copied from the chunk buffer `buf`. */
  ghost predicate Copied(out: seq<byte>, buf: seq<byte>, w: int, start: int, i: int, j: nat)
  {
    && Holds(out, Offset(w, i, j)) && Holds(buf, LocalIndex(start, i, j))
    && Get(out, Offset(w, i, j)) == Get(buf, LocalIndex(start, i, j))
  }

  /** Pixel (i, j) of `out` is as it was in `img`. */
  ghost predicate Kept(out: seq<byte>, img: seq<byte>, w: int, i: int, j: nat)
  {
    Holds(out, Offset(w, i, j)) && Holds(img, Offset(w, i, j))
    && Get(out, Offset(w, i, j)) == Get(img, Offset(w, i, j))
  }

  /** Every owned pixel of a chunk has its slot in a chunk buffer. */
  lemma LocalFits(start: int, x: int, y: nat, h: nat)
    requires start <= x < start + CHUNK_SIZE && 0 <= y < h
    ensures Fits(ChunkBytes(h), LocalIndex(start, x, y))
  {
    OffsetIsProduct(CHUNK_SIZE, x - start, y);
    PixelIndexBound(x - start, y, CHUNK_SIZE, h);
  }

  // ---------------------------------------------------------------------------
  // Worker

  /** The worker's pass over chunk `idx`: it fills a fresh `CHUNK_SIZE * h * 3`-byte
      buffer column by column, storing the colour of every owned canvas pixel at its
      chunk-local slot. */
  method RenderChunk(colour: (int, int) -> Pixel, w: nat, h: nat, idx: nat) returns (buf: seq<byte>)
    ensures |buf| == ChunkBytes(h)
    ensures forall x, y :: Bands(w).Owns(w, idx, x) && 0 <= y < h ==>
      Painted(buf, colour, Bands(w).Start(idx), x, y)
  {
    var start := Bands(w).Start(idx);
    var stop := Stop(w, idx);
    buf := seq(ChunkBytes(h), _ => 0);
    var px := start;
    while px < stop
      invariant start <= px <= stop && |buf| == ChunkBytes(h)
      invariant forall x, y :: start <= x < px && 0 <= y < h ==> Painted(buf, colour, start, x, y)
    {
      var py := 0;
      while py < h
        invariant 0 <= py <= h && |buf| == ChunkBytes(h)
        invariant forall x, y :: start <= x < px && 0 <= y < h ==> Painted(buf, colour, start, x, y)
        invariant forall y :: 0 <= y < py ==> Painted(buf, colour, start, px, y)
      {
        var n := LocalIndex(start, px, py);
        LocalFits(start, px, py, h);
        var prev := buf;
        buf := Put(buf, n, colour(px, py));
        PutGet(prev, n, colour(px, py));
        forall x, y | start <= x < px && 0 <= y < h ensures Painted(buf, colour, start, x, y) {
          assert Painted(prev, colour, start, x, y);
          StoreElsewhere(prev, CHUNK_SIZE, px - start, py, colour(px, py), x - start, y);
        }
        forall y | 0 <= y < py ensures Painted(buf, colour, start, px, y) {
          assert Painted(prev, colour, start, px, y);
          StoreElsewhere(prev, CHUNK_SIZE, px - start, py, colour(px, py), px - start, y);
        }
        py := py + 1;
      }
      px := px + 1;
    }
  }

  // ---------------------------------------------------------------------------
  // Coordinator

  /** The coordinator's copy of a received chunk: every owned pixel of the canvas is
      copied from its chunk-local slot to its master slot, and nothing else of the
      master raster changes. */
  method MergeChunk(img: seq<byte>, buf: seq<byte>, w: nat, h: nat, idx: nat) returns (out: seq<byte>)
    requires |img| == w * h * 3 && |buf| == ChunkBytes(h)
    ensures |out| == |img|
    ensures forall i, j :: Bands(w).Owns(w, idx, i) && 0 <= j < h ==>
      Copied(out, buf, w, Bands(w).Start(idx), i, j)
    ensures forall i, j :: 0 <= i < w && 0 <= j < h && !Bands(w).Owns(w, idx, i) ==>
      Kept(out, img, w, i, j)
  {
    out := MergeColumns(img, buf, w, h, Bands(w).Start(idx), Stop(w, idx));
  }

  /** Columns `start .. stop-1` of the coordinator's copy. */
  method MergeColumns(
    img: seq<byte>, buf: seq<byte>, w: nat, h: nat, start: nat, stop: nat) returns (out: seq<byte>)
    requires |img| == w * h * 3 && |buf| == ChunkBytes(h)
    requires start <= stop <= start + CHUNK_SIZE && (stop <= w || stop == start)
    ensures |out| == |img|
    ensures forall i, j :: start <= i < stop && 0 <= j < h ==> Copied(out, buf, w, start, i, j)
    ensures forall i, j :: 0 <= i < w && 0 <= j < h && !(start <= i < stop) ==> Kept(out, img, w, i, j)
  {
    forall i, j | 0 <= i < w && 0 <= j < h ensures Kept(img, img, w, i, j) {
      OffsetFits(w, h, i, j);
    }
    out := img;
    var px := start;
    while px < stop
      invariant start <= px <= stop && |out| == |img|
      invariant forall i, j :: start <= i < px && 0 <= j < h ==> Copied(out, buf, w, start, i, j)
      invariant forall i, j :: 0 <= i < w && 0 <= j < h && !(start <= i < px) ==> Kept(out, img, w, i, j)
    {
      out := MergeColumn(out, img, buf, w, h, start, px);
      px := px + 1;
    }
  }

  /** Rows `0 .. h-1` of column `px`: the columns before it stay copied, column `px`
      becomes copied, and the pixels outside `start .. px` stay as in `img`. */
  method MergeColumn(cur: seq<byte>, img: seq<byte>, buf: seq<byte>, w: nat, h: nat, start: int, px: int)
    returns (out: seq<byte>)
    requires |cur| == |img| == w * h * 3 && |buf| == ChunkBytes(h)
    requires 0 <= start <= px < w && px < start + CHUNK_SIZE
    requires forall i, j :: start <= i < px && 0 <= j < h ==> Copied(cur, buf, w, start, i, j)
    requires forall i, j :: 0 <= i < w && 0 <= j < h && !(start <= i < px) ==> Kept(cur, img, w, i, j)
    ensures |out| == |img|
    ensures forall i, j :: start <= i < px + 1 && 0 <= j < h ==> Copied(out, buf, w, start, i, j)
    ensures forall i, j :: 0 <= i < w && 0 <= j < h && !(start <= i < px + 1) ==> Kept(out, img, w, i, j)
  {
    out := cur;
    var py := 0;
    while py < h
      invariant 0 <= py <= h && |out| == |img|
      invariant forall i, j :: start <= i < px && 0 <= j < h ==> Copied(out, buf, w, start, i, j)
      invariant forall j :: 0 <= j < py ==> Copied(out, buf, w, start, px, j)
      invariant forall i, j :: 0 <= i < w && 0 <= j < h && !(start <= i < px) && !(i == px && j < py) ==>
        Kept(out, img, w, i, j)
    {
      out := CopyPixel(out, img, buf, w, h, start, px, py);
      py := py + 1;
    }
  }

  /** One pixel of the coordinator's copy, with what it leaves alone. */
  method CopyPixel(
    cur: seq<byte>, img: seq<byte>, buf: seq<byte>, w: nat, h: nat, start: int, px: int, py: nat)
    returns (out: seq<byte>)
    requires |cur| == |img| == w * h * 3 && |buf| == ChunkBytes(h)
    requires 0 <= start <= px < w && px < start + CHUNK_SIZE && 0 <= py < h
    requires forall i, j :: start <= i < px && 0 <= j < h ==> Copied(cur, buf, w, start, i, j)
    requires forall j :: 0 <= j < py ==> Copied(cur, buf, w, start, px, j)
    requires forall i, j :: 0 <= i < w && 0 <= j < h && !(start <= i < px) && !(i == px && j < py) ==>
      Kept(cur, img, w, i, j)
    ensures |out| == |img|
    ensures forall i, j :: start <= i < px && 0 <= j < h ==> Copied(out, buf, w, start, i, j)
    ensures forall j :: 0 <= j < py + 1 ==> Copied(out, buf, w, start, px, j)
    ensures forall i, j :: 0 <= i < w && 0 <= j < h && !(start <= i < px) && !(i == px && j < py + 1) ==>
      Kept(out, img, w, i, j)
  {
    var n := Offset(w, px, py);
    OffsetFits(w, h, px, py);
    LocalFits(start, px, py, h);
    var p := Get(buf, LocalIndex(start, px, py));
    out := Put(cur, n, p);
    PutGet(cur, n, p);
    forall i, j | start <= i < px && 0 <= j < h ensures Copied(out, buf, w, start, i, j) {
      assert Copied(cur, buf, w, start, i, j);
      StoreElsewhere(cur, w, px, py, p, i, j);
    }
    forall j | 0 <= j < py ensures Copied(out, buf, w, start, px, j) {
      assert Copied(cur, buf, w, start, px, j);
      StoreElsewhere(cur, w, px, py, p, px, j);
    }
    forall i, j | 0 <= i < w && 0 <= j < h && !(start <= i < px) && !(i == px && j < py + 1)
      ensures Kept(out, img, w, i, j)
    {
      assert Kept(cur, img, w, i, j);
      StoreElsewhere(cur, w, px, py, p, i, j);
    }
  }

  // ---------------------------------------------------------------------------
  // The whole image

  /** The chunk whose band holds column `x`. */
  function ChunkOf(x: nat): nat
  {
    x / CHUNK_SIZE
  }

  /** When `total` bands of `CHUNK_SIZE` columns span the canvas, every column lies in
      one of the first `total` bands. */
  lemma ColumnInSomeChunk(x: nat, total: nat)
    requires x < CHUNK_SIZE * total
    ensures ChunkOf(x) < total
  {
    if ChunkOf(x) >= total {
      MulMonotone(total, ChunkOf(x), CHUNK_SIZE);
    }
  }

  /** The coordinator's assembly for one arrival order: each chunk named in `order` is
      rendered by a worker and merged into the master raster. When every chunk below
      `total` arrives and the bands span the canvas, every pixel ends up holding its
      colour, whatever the order and however often a chunk is repeated. */
  method Assemble(img0: seq<byte>, order: seq<nat>, colour: (int, int) -> Pixel, w: nat, h: nat, total: nat)
    returns (img: seq<byte>)
    requires |img0| == w * h * 3 && w <= CHUNK_SIZE * total
    requires forall c: nat :: c < total ==> c in order
    ensures |img| == |img0|
    ensures forall i, j :: 0 <= i < w && 0 <= j < h ==> Shows(img, colour, w, i, j)
  {
    img := img0;
    var k := 0;
    while k < |order|
      invariant 0 <= k <= |order| && |img| == |img0|
      invariant forall i, j :: 0 <= i < w && 0 <= j < h && ChunkOf(i) in order[..k] ==>
        Shows(img, colour, w, i, j)
    {
      var idx := order[k];
      var start := Bands(w).Start(idx);
      var buf := RenderChunk(colour, w, h, idx);
      var next := MergeChunk(img, buf, w, h, idx);
      assert order[..k + 1] == order[..k] + [idx];
      forall i, j | 0 <= i < w && 0 <= j < h && ChunkOf(i) in order[..k + 1]
        ensures Shows(next, colour, w, i, j)
      {
        OwnerIsQuotient(Bands(w), w, idx, i);
        if ChunkOf(i) == idx {
          assert Copied(next, buf, w, start, i, j) && Painted(buf, colour, start, i, j);
        } else {
          assert Kept(next, img, w, i, j) && Shows(img, colour, w, i, j);
        }
      }
      img := next;
      k := k + 1;
    }
    forall i, j | 0 <= i < w && 0 <= j < h ensures Shows(img, colour, w, i, j) {
      ColumnInSomeChunk(i, total);
      assert order[..|order|] == order;
      assert ChunkOf(i) in order[..k];
    }
  }
}

=== FILE: pipeline.dfy ===
/** `createImage` end to end, on the corrected indexing: the scheduler hands out the
    chunks, results arrive in whatever order the schedule dictates, and the coordinator
    merges each one as it arrives. */
module Pipeline {
  import opened Config
  import opened Raster
  import opened Scheduler
  import opened Protocol
  import opened Merge

  /** For every schedule that drives the protocol to a standstill, merging the results in
      their arrival order paints every pixel of the `w` by `h` canvas with its colour,
      provided the `total` bands span the canvas. */
  method CreateImage(total: nat, nproc: nat, sched: seq<Event>, colour: (int, int) -> Pixel, w: nat, h: nat)
    returns (img: seq<byte>)
    requires total >= 1 && nproc >= 2 && w <= CHUNK_SIZE * total
    requires Run(FanOut(total, nproc), sched).Some?
    requires forall e :: !Enabled(Run(FanOut(total, nproc), sched).value, e)
    ensures |img| == w * h * 3
    ensures forall i, j :: 0 <= i < w && 0 <= j < h ==> Shows(img, colour, w, i, j)
  {
    var arrivals := Run(FanOut(total, nproc), sched).value.merged;
    assert forall c: nat :: c < total ==> c in arrivals by {
      RunCompletes(total, nproc, sched);
    }
    var blank: seq<byte> := seq(w * h * 3, _ => 0);
    img := Assemble(blank, arrivals, colour, w, h, total);
  }

}

=== FILE: protocol.dfy ===
/** Safety, progress and termination of the scheduler under every delivery order. */
module Protocol {
  import opened Seqs
  import opened Wrappers
  import opened Scheduler

  // ---------------------------------------------------------------------------
  // The invariant

  /** Which queues may be non-empty in each phase. A status reply `v` comes with a
      chunk on tag 3 exactly when `v < total`, and that chunk is `v`. */
  ghost predicate MailboxOk(total: nat, wk: Worker)
  {
    match wk.phase
    case AwaitFirst =>
      wk.status == [] && ((wk.tag99 == [1] && wk.tag3 == []) || (wk.tag99 == [0] && |wk.tag3| == 1))
    case AwaitWork => wk.status == [] && |wk.tag3| == 1
    case Working(_) => wk.status == [] && wk.tag3 == []
    case AwaitReply(_) =>
      || (wk.status == [] && wk.tag3 == [])
      || (|wk.status| == 1 && wk.tag3 == (if wk.status[0] < total then [wk.status[0]] else []))
    case Exited(_) => wk.status == [] && wk.tag3 == []
  }

  /** Chunks handed to a worker and not yet merged by the coordinator. */
  function Outstanding(wk: Worker): set<nat>
  {
    match wk.phase
    case Working(c) => {c}
    case AwaitReply(c) => if wk.status == [] then {c} else Elems(wk.tag3)
    case Exited(_) => {}
    case _ => Elems(wk.tag3)
  }

  ghost predicate Zeros(q: seq<int>)
  {
    forall a :: 0 <= a < |q| ==> q[a] == 0
  }

  /** Tag-99 bookkeeping of a worker that was sent `owned` chunks: before its first
      receive it holds exactly the fan-out message; after it, every `sendWork` has left
      one "not terminated" message that the worker never reads. */
  ghost predicate TagOk(wk: Worker, owned: nat)
  {
    match wk.phase
    case AwaitFirst => (wk.tag99 == [1] && owned == 0) || (wk.tag99 == [0] && owned == 1)
    case Exited(early) =>
      if early then wk.tag99 == [] && owned == 0 else owned == |wk.tag99| + 1 && Zeros(wk.tag99)
    case _ => owned == |wk.tag99| + 1 && Zeros(wk.tag99)
  }

  ghost predicate Counters(s: Sys)
  {
    && s.total >= 1
    && |s.owner| == s.chunksSent <= s.total
    && |s.merged| == s.responseChunks <= s.chunksSent
    && (|s.workers| > 0 && s.responseChunks < s.total ==> s.responseChunks < s.chunksSent)
  }

  /** Every chunk handed out is, at any moment, either merged or outstanding at the
      worker it was sent to, and never both. */
  ghost predicate Ledger(s: Sys)
    requires Counters(s)
  {
    && (forall c :: 0 <= c < |s.owner| ==> s.owner[c] < |s.workers|)
    && Distinct(s.merged) && AllBelow(s.merged, s.chunksSent)
    && (forall w, c {:trigger c in Outstanding(s.workers[w])} ::
          0 <= w < |s.workers| && c in Outstanding(s.workers[w]) ==>
          c < s.chunksSent && s.owner[c] == w)
    && (forall c :: 0 <= c < s.chunksSent ==>
          (c in s.merged <==> c !in Outstanding(s.workers[s.owner[c]])))
  }

  ghost predicate Mailboxes(s: Sys)
  {
    forall w :: 0 <= w < |s.workers| ==> MailboxOk(s.total, s.workers[w])
  }

  ghost predicate Tags(s: Sys)
  {
    forall w :: 0 <= w < |s.workers| ==>
      TagOk(s.workers[w], Count(s.owner, w)) && (Count(s.owner, w) > 0 <==> w < s.total)
  }

  ghost predicate Inv(s: Sys)
  {
    Counters(s) && Ledger(s) && Mailboxes(s) && Tags(s)
  }

  // ---------------------------------------------------------------------------
  // The invariant holds after the fan-out

  lemma {:induction false} CountIdentity(owner: seq<nat>, w: nat)
    requires forall c :: 0 <= c < |owner| ==> owner[c] == c
    ensures Count(owner, w) == (if w < |owner| then 1 else 0)
  {
    if owner != [] {
      var p := owner[..|owner| - 1];
      CountIdentity(p, w);
    }
  }

  lemma FanOutEstablishes(total: nat, nproc: nat)
    requires total >= 1 && nproc >= 1
    ensures Inv(FanOut(total, nproc))
  {
    var s := FanOut(total, nproc);
    FanOutAssigns(total, nproc);
    forall w | 0 <= w < |s.workers|
      ensures TagOk(s.workers[w], Count(s.owner, w)) && (Count(s.owner, w) > 0 <==> w < s.total)
    {
      CountIdentity(s.owner, w);
    }
    forall c | 0 <= c < s.chunksSent
      ensures c in Outstanding(s.workers[s.owner[c]])
    {
      assert s.workers[c] == Worker(AwaitFirst, [0], [c], []);
    }
  }

  // ---------------------------------------------------------------------------
  // Each event preserves the invariant

  lemma CountAppend(owner: seq<nat>, x: nat, w: nat)
    ensures Count(owner + [x], w) == Count(owner, w) + (if x == w then 1 else 0)
  {
    assert (owner + [x])[..|owner + [x]| - 1] == owner;
  }

  /** Replacing one worker by `x` keeps the invariant when `x` holds the same
      outstanding chunks and its own mailbox and tag-99 facts hold. */
  lemma ReplaceWorkerPreserves(s: Sys, w: nat, x: Worker)
    requires Inv(s) && w < |s.workers|
    requires Outstanding(x) == Outstanding(s.workers[w])
    requires MailboxOk(s.total, x) && TagOk(x, Count(s.owner, w))
    ensures Inv(s.(workers := s.workers[w := x]))
  {
    ReplaceLedger(s, w, x);
    ReplaceMailTags(s, w, x);
  }

  lemma ReplaceLedger(s: Sys, w: nat, x: Worker)
    requires Counters(s) && Ledger(s) && w < |s.workers|
    requires Outstanding(x) == Outstanding(s.workers[w])
    ensures Counters(s.(workers := s.workers[w := x]))
    ensures Ledger(s.(workers := s.workers[w := x]))
  {
    var s' := s.(workers := s.workers[w := x]);
    forall v | 0 <= v < |s'.workers|
      ensures Outstanding(s'.workers[v]) == Outstanding(s.workers[v])
    {
    }
  }

  lemma ReplaceMailTags(s: Sys, w: nat, x: Worker)
    requires Mailboxes(s) && Tags(s) && w < |s.workers|
    requires MailboxOk(s.total, x) && TagOk(x, Count(s.owner, w))
    ensures Mailboxes(s.(workers := s.workers[w := x]))
    ensures Tags(s.(workers := s.workers[w := x]))
  {
  }

  /** A worker's own action keeps its outstanding chunks and its mailbox and tag-99 facts. */
  lemma WorkerNextOk(total: nat, wk: Worker, owned: nat)
    requires MailboxOk(total, wk) && TagOk(wk, owned)
    requires match wk.phase
       case AwaitFirst => wk.tag99 != []
       case AwaitWork => wk.tag3 != []
       case Working(_) => true
       case AwaitReply(_) => wk.status != []
       case Exited(_) => false
    ensures var x := WorkerNext(total, wk);
      Outstanding(x) == Outstanding(wk) && MailboxOk(total, x) && TagOk(x, owned)
  {
    var x := WorkerNext(total, wk);
    match wk.phase
    case AwaitFirst =>
      assert x.tag99 == [];
    case AwaitWork =>
      assert x.tag3 == [];
    case Working(_) =>
    case AwaitReply(_) =>
      assert x.status == [];
  }

  lemma AdvancePreserves(s: Sys, w: nat)
    requires Inv(s) && CanAdvance(s, w)
    ensures Inv(AdvanceStep(s, w))
  {
    WorkerNextOk(s.total, s.workers[w], Count(s.owner, w));
    ReplaceWorkerPreserves(s, w, WorkerNext(s.total, s.workers[w]));
  }

  /** Facts about the worker whose result is collected. */
  lemma CollectedChunk(s: Sys, w: nat)
    requires Counters(s) && Ledger(s) && CanCollect(s, w) && MailboxOk(s.total, s.workers[w])
    ensures var c := s.workers[w].phase.chunk;
      c < s.chunksSent && s.owner[c] == w && c !in s.merged
    ensures s.workers[w].tag3 == []
    ensures s.responseChunks < s.chunksSent
    ensures Count(s.owner, w) > 0
  {
    var c := s.workers[w].phase.chunk;
    assert c in Outstanding(s.workers[w]);
    assert s.owner[c] == w;
    assert w in s.owner;
  }

  lemma CollectMerged(s: Sys, w: nat)
    requires Counters(s) && Ledger(s) && CanCollect(s, w) && MailboxOk(s.total, s.workers[w])
    ensures Counters(CollectStep(s, w))
    ensures Distinct(CollectStep(s, w).merged)
    ensures AllBelow(CollectStep(s, w).merged, CollectStep(s, w).chunksSent)
    ensures forall c :: 0 <= c < |CollectStep(s, w).owner| ==> CollectStep(s, w).owner[c] < |s.workers|
  {
    var s' := CollectStep(s, w);
    CollectedChunk(s, w);
    forall a, b | 0 <= a < b < |s'.merged| ensures s'.merged[a] != s'.merged[b] {
      if b == |s.merged| { assert s'.merged[a] == s.merged[a] && s.merged[a] in s.merged; }
      else { assert s'.merged[a] == s.merged[a] && s'.merged[b] == s.merged[b]; }
    }
    forall a | 0 <= a < |s'.merged| ensures s'.merged[a] < s'.chunksSent {
      if a < |s.merged| { assert s'.merged[a] == s.merged[a]; }
    }
    forall a | 0 <= a < |s'.owner| ensures s'.owner[a] < |s.workers| {
      if a < |s.owner| { assert s'.owner[a] == s.owner[a]; }
    }
  }

  lemma CollectOwned(s: Sys, w: nat)
    requires Counters(s) && Ledger(s) && CanCollect(s, w) && MailboxOk(s.total, s.workers[w])
    ensures var s' := CollectStep(s, w);
      forall v, x :: 0 <= v < |s'.workers| && x in Outstanding(s'.workers[v]) ==>
        x < s'.chunksSent && s'.owner[x] == v
  {
    var s' := CollectStep(s, w);
    CollectedChunk(s, w);
    assert Outstanding(s'.workers[w]) == (if s.chunksSent < s.total then {s.chunksSent} else {});
    forall v, x | 0 <= v < |s'.workers| && x in Outstanding(s'.workers[v])
      ensures x < s'.chunksSent && s'.owner[x] == v
    {
      if v != w {
        assert s'.workers[v] == s.workers[v];
        assert x in Outstanding(s.workers[v]);
        assert x < s.chunksSent && s.owner[x] == v;
        assert s'.owner[..|s.owner|] == s.owner;
        assert s'.owner[x] == s.owner[x];
      } else {
        assert x == s.chunksSent && s'.owner == s.owner + [w];
      }
    }
  }

  lemma CollectAccounted(s: Sys, w: nat)
    requires Counters(s) && Ledger(s) && CanCollect(s, w) && MailboxOk(s.total, s.workers[w])
    ensures var s' := CollectStep(s, w);
      |s'.owner| == s'.chunksSent &&
      forall x :: 0 <= x < s'.chunksSent ==>
        (x in s'.merged <==> x !in Outstanding(s'.workers[s'.owner[x]]))
  {
    var s' := CollectStep(s, w);
    var c := s.workers[w].phase.chunk;
    CollectedChunk(s, w);
    assert Outstanding(s'.workers[w]) == (if s.chunksSent < s.total then {s.chunksSent} else {});
    forall x | 0 <= x < s'.chunksSent
      ensures (x in s'.merged <==> x !in Outstanding(s'.workers[s'.owner[x]]))
    {
      if x == s.chunksSent {
        assert s'.owner[x] == w;
        assert s'.merged == s.merged + [c];
        assert x !in s.merged;
      } else {
        assert s'.owner[x] == s.owner[x];
        if s.owner[x] != w {
          assert s'.workers[s.owner[x]] == s.workers[s.owner[x]];
        }
        assert x in s'.merged <==> x in s.merged || x == c;
      }
    }
  }

  lemma CollectLedger(s: Sys, w: nat)
    requires Counters(s) && Ledger(s) && CanCollect(s, w) && MailboxOk(s.total, s.workers[w])
    ensures Counters(CollectStep(s, w)) && Ledger(CollectStep(s, w))
  {
    CollectMerged(s, w);
    CollectOwned(s, w);
    CollectAccounted(s, w);
  }

  /** The collected worker after the step: its mailbox and tag-99 facts. */
  lemma CollectedWorkerOk(s: Sys, w: nat)
    requires Counters(s) && Ledger(s) && CanCollect(s, w)
    requires MailboxOk(s.total, s.workers[w]) && TagOk(s.workers[w], Count(s.owner, w))
    ensures var s' := CollectStep(s, w);
      MailboxOk(s'.total, s'.workers[w]) && TagOk(s'.workers[w], Count(s'.owner, w))
      && Count(s'.owner, w) > 0
  {
    var s' := CollectStep(s, w);
    var wk := s.workers[w];
    CollectedChunk(s, w);
    var more := s.chunksSent < s.total;
    var x := s'.workers[w];
    assert x == Worker(wk.phase, wk.tag99 + (if more then [0] else []),
                       if more then [s.chunksSent] else [], [s.chunksSent]);
    var n := Count(s'.owner, w);
    if more {
      CountAppend(s.owner, w, w);
      assert n == Count(s.owner, w) + 1;
      var q := x.tag99;
      assert Zeros(q) by {
        forall a | 0 <= a < |q| ensures q[a] == 0 {
          if a < |wk.tag99| { assert q[a] == wk.tag99[a]; }
        }
      }
    } else {
      assert x.tag99 == wk.tag99;
    }
  }

  /** The workers other than the collected one keep their mailbox and tag-99 facts. */
  lemma CollectOthersOk(s: Sys, w: nat)
    requires Counters(s) && Mailboxes(s) && Tags(s) && CanCollect(s, w)
    ensures var s' := CollectStep(s, w);
      forall v :: 0 <= v < |s'.workers| && v != w ==>
        MailboxOk(s'.total, s'.workers[v])
        && TagOk(s'.workers[v], Count(s'.owner, v)) && (Count(s'.owner, v) > 0 <==> v < s'.total)
  {
    var s' := CollectStep(s, w);
    forall v | 0 <= v < |s'.workers| && v != w
      ensures MailboxOk(s'.total, s'.workers[v])
      ensures TagOk(s'.workers[v], Count(s'.owner, v)) && (Count(s'.owner, v) > 0 <==> v < s'.total)
    {
      if s.chunksSent < s.total { CountAppend(s.owner, w, v); }
      assert s'.workers[v] == s.workers[v];
    }
  }

  lemma CollectMailTags(s: Sys, w: nat)
    requires Inv(s) && CanCollect(s, w)
    ensures Mailboxes(CollectStep(s, w)) && Tags(CollectStep(s, w))
  {
    assert MailboxOk(s.total, s.workers[w]) && TagOk(s.workers[w], Count(s.owner, w));
    assert Count(s.owner, w) > 0 ==> w < s.total;
    CollectedWorkerOk(s, w);
    CollectOthersOk(s, w);
  }

  lemma CollectPreserves(s: Sys, w: nat)
    requires Inv(s) && CanCollect(s, w)
    ensures Inv(CollectStep(s, w))
  {
    assert MailboxOk(s.total, s.workers[w]);
    CollectLedger(s, w);
    CollectMailTags(s, w);
  }

  lemma StepPreserves(s: Sys, e: Event)
    requires Inv(s) && Enabled(s, e)
    ensures Inv(Step(s, e))
  {
    match e
    case Collect(w) => CollectPreserves(s, w);
    case Advance(w) => AdvancePreserves(s, w);
  }

  // ---------------------------------------------------------------------------
  // Termination: every event lowers a measure

  /** How many actions a worker may still take before its next collected result. */
  function Rank(wk: Worker): nat
  {
    match wk.phase
    case AwaitFirst => 5
    case AwaitWork => 4
    case Working(_) => 3
    case AwaitReply(_) => if wk.status == [] then 2 else if wk.tag3 != [] then 5 else 1
    case Exited(_) => 0
  }

  function RankSum(ws: seq<Worker>): nat
  {
    if ws == [] then 0 else Rank(ws[0]) + RankSum(ws[1..])
  }

  function Measure(s: Sys): nat
  {
    6 * (if s.responseChunks <= s.total then s.total - s.responseChunks else 0) + RankSum(s.workers)
  }

  lemma {:induction false} RankSumUpdate(ws: seq<Worker>, w: nat, x: Worker)
    requires w < |ws|
    ensures RankSum(ws[w := x]) + Rank(ws[w]) == RankSum(ws) + Rank(x)
  {
    if w > 0 {
      assert ws[w := x][1..] == ws[1..][w - 1 := x];
      RankSumUpdate(ws[1..], w - 1, x);
    } else {
      assert ws[0 := x][1..] == ws[1..];
    }
  }

  lemma {:induction false} RankSumFresh(n: nat, ws: seq<Worker>)
    requires |ws| == n && forall w :: 0 <= w < n ==> ws[w].phase == AwaitFirst
    ensures RankSum(ws) == 5 * n
  {
    if n > 0 {
      RankSumFresh(n - 1, ws[1..]);
    }
  }

  /** Every event strictly lowers the measure, so no schedule runs forever. */
  lemma StepDecreases(s: Sys, e: Event)
    requires Inv(s) && Enabled(s, e)
    ensures Measure(Step(s, e)) < Measure(s)
  {
    var w := e.w;
    var s' := Step(s, e);
    assert MailboxOk(s.total, s.workers[w]);
    assert s'.workers == s.workers[w := s'.workers[w]];
    RankSumUpdate(s.workers, w, s'.workers[w]);
    assert Rank(s'.workers[w]) < Rank(s.workers[w]) || e.Collect?;
  }

  // ---------------------------------------------------------------------------
  // Progress: an unfinished system always has an enabled event

  /** The run is over: the coordinator left its loop and every worker left its loop. */
  ghost predicate Done(s: Sys)
  {
    s.responseChunks == s.total && forall w :: 0 <= w < |s.workers| ==> s.workers[w].phase.Exited?
  }

  /** Once the coordinator has counted `total` responses, every chunk is merged and no
      worker holds one. */
  lemma AllMergedWhenCounted(s: Sys)
    requires Inv(s) && s.responseChunks == s.total
    ensures s.chunksSent == s.total
    ensures forall c: nat :: c < s.total ==> c in s.merged
    ensures forall w :: 0 <= w < |s.workers| ==> Outstanding(s.workers[w]) == {}
  {
    CoversAll(s.merged, s.total);
    forall w | 0 <= w < |s.workers| ensures Outstanding(s.workers[w]) == {} {
      if c :| c in Outstanding(s.workers[w]) {
        assert false;
      }
    }
  }

  lemma SomeEventEnabled(s: Sys) returns (e: Event)
    requires Inv(s) && |s.workers| > 0 && !Done(s)
    ensures Enabled(s, e)
  {
    var w: nat;
    if s.responseChunks < s.total {
      var c := MissingBelow(s.merged, s.chunksSent);
      w := s.owner[c];
      assert c in Outstanding(s.workers[w]);
    } else {
      AllMergedWhenCounted(s);
      w :| 0 <= w < |s.workers| && !s.workers[w].phase.Exited?;
      assert Outstanding(s.workers[w]) == {};
    }
    assert MailboxOk(s.total, s.workers[w]) && TagOk(s.workers[w], Count(s.owner, w));
    if CanAdvance(s, w) {
      e := Advance(w);
    } else {
      e := Collect(w);
    }
  }

  // ---------------------------------------------------------------------------
  // Runs under an arbitrary delivery order

  /** Apply `sched` event by event; `None` if some event is not enabled when its turn comes. */
  function Run(s: Sys, sched: seq<Event>): (r: Option<Sys>)
    ensures r.Some? ==> r.value.total == s.total && |r.value.workers| == |s.workers|
    decreases |sched|
  {
    if sched == [] then Some(s)
    else if Enabled(s, sched[0]) then Run(Step(s, sched[0]), sched[1..])
    else None
  }

  /** Every event keeps the counters in order: `chunksSent` grows by at most one and only
      by appending the new chunk's owner, each collected result adds exactly one response,
      and a worker's own action changes neither counter. */
  lemma StepCounters(s: Sys, e: Event)
    requires Enabled(s, e)
    ensures var t := Step(s, e);
      && t.total == s.total && |t.workers| == |s.workers|
      && (t.chunksSent == s.chunksSent || t.chunksSent == s.chunksSent + 1)
      && (t.chunksSent == s.chunksSent + 1 ==> s.chunksSent < s.total)
      && s.owner <= t.owner
      && t.responseChunks == s.responseChunks + (if e.Collect? then 1 else 0)
      && s.merged <= t.merged
  {
  }

  lemma {:induction false} RunHistory(s: Sys, sched: seq<Event>)
    requires Run(s, sched).Some?
    ensures var t := Run(s, sched).value;
      && t.total == s.total && |t.workers| == |s.workers|
      && s.chunksSent <= t.chunksSent && s.responseChunks <= t.responseChunks
      && s.owner <= t.owner && s.merged <= t.merged
    decreases |sched|
  {
    if sched != [] {
      StepCounters(s, sched[0]);
      RunHistory(Step(s, sched[0]), sched[1..]);
    }
  }

  lemma {:induction false} RunKeepsInv(s: Sys, sched: seq<Event>)
    requires Inv(s) && Run(s, sched).Some?
    ensures Inv(Run(s, sched).value)
    ensures Measure(Run(s, sched).value) + |sched| <= Measure(s)
    decreases |sched|
  {
    if sched != [] {
      StepPreserves(s, sched[0]);
      StepDecreases(s, sched[0]);
      RunKeepsInv(Step(s, sched[0]), sched[1..]);
    }
  }

  /** No delivery order lets the protocol run longer than `6*total + 5*(nproc-1)` events. */
  lemma EveryScheduleIsFinite(total: nat, nproc: nat, sched: seq<Event>)
    requires total >= 1 && nproc >= 1
    requires Run(FanOut(total, nproc), sched).Some?
    ensures |sched| <= 6 * total + 5 * (nproc - 1)
  {
    var s := FanOut(total, nproc);
    FanOutAssigns(total, nproc);
    FanOutEstablishes(total, nproc);
    RankSumFresh(nproc - 1, s.workers);
    RunKeepsInv(s, sched);
  }

  // ---------------------------------------------------------------------------
  // Completion

  /** Number of tag-99 messages still queued at the workers of `ws`. */
  function Unread(ws: seq<Worker>): nat
  {
    if ws == [] then 0 else Unread(ws[..|ws| - 1]) + |ws[|ws| - 1].tag99|
  }

  /** Once every worker has left its loop, each one that was sent chunks still holds
      one unread tag-99 message per chunk but the first, and each one that was sent none
      holds nothing. */
  lemma {:induction false} UnreadWhenDone(s: Sys, m: nat)
    requires Tags(s) && m <= |s.workers|
    requires forall w :: 0 <= w < |s.workers| ==> s.workers[w].phase.Exited?
    ensures Unread(s.workers[..m]) + Min(m, s.total) == CountUpTo(s.owner, m)
  {
    if m > 0 {
      UnreadWhenDone(s, m - 1);
      assert s.workers[..m][..m - 1] == s.workers[..m - 1];
      var wk := s.workers[m - 1];
      assert wk.phase.Exited?;
      assert TagOk(wk, Count(s.owner, m - 1)) && (Count(s.owner, m - 1) > 0 <==> m - 1 < s.total);
    }
  }

  /** A state of the protocol in which no event is enabled is finished: every chunk is
      merged exactly once, every worker has left its loop, the workers beyond the chunk
      count were terminated at fan-out and never given a chunk, and the "not terminated"
      messages nobody received number `total - min(workers, total)`. */
  lemma Standstill(t: Sys)
    requires Inv(t) && |t.workers| > 0
    requires forall e :: !Enabled(t, e)
    ensures && t.responseChunks == t.total && t.chunksSent == t.total
      && (forall w :: 0 <= w < |t.workers| ==> t.workers[w].phase.Exited?)
      && |t.merged| == t.total && Distinct(t.merged)
      && (forall c: nat :: c < t.total ==> c in t.merged)
      && (forall w :: 0 <= w < |t.workers| ==> (t.workers[w].phase == Exited(true) <==> w >= t.total))
      && (forall w: nat :: t.total <= w < |t.workers| ==> w !in t.owner)
      && Unread(t.workers) == t.total - Min(|t.workers|, t.total)
  {
    if !Done(t) {
      var e := SomeEventEnabled(t);
    }
    AllMergedWhenCounted(t);
    forall w | 0 <= w < |t.workers|
      ensures (t.workers[w].phase == Exited(true) <==> w >= t.total)
    {
      assert TagOk(t.workers[w], Count(t.owner, w)) && (Count(t.owner, w) > 0 <==> w < t.total);
    }
    forall w: nat | t.total <= w < |t.workers| ensures w !in t.owner {
      assert Count(t.owner, w) == 0;
    }
    UnreadWhenDone(t, |t.workers|);
    assert t.workers[..|t.workers|] == t.workers;
    CountUpToAll(t.owner, |t.workers|);
  }

  /** Whatever order results arrive in, a run from the fan-out that can go no further has
      merged every chunk exactly once, every worker has left its loop, the workers beyond
      the chunk count were terminated at fan-out and never given a chunk, and exactly
      `total - min(nproc-1, total)` "not terminated" messages were never received. */
  lemma RunCompletes(total: nat, nproc: nat, sched: seq<Event>)
    requires total >= 1 && nproc >= 2
    requires Run(FanOut(total, nproc), sched).Some?
    requires forall e :: !Enabled(Run(FanOut(total, nproc), sched).value, e)
    ensures var t := Run(FanOut(total, nproc), sched).value;
      && t.responseChunks == total && t.chunksSent == total
      && (forall w :: 0 <= w < |t.workers| ==> t.workers[w].phase.Exited?)
      && |t.merged| == total && Distinct(t.merged)
      && (forall c: nat :: c < total ==> c in t.merged)
      && (forall w :: 0 <= w < |t.workers| ==> (t.workers[w].phase == Exited(true) <==> w >= total))
      && (forall w: nat :: total <= w < |t.workers| ==> w !in t.owner)
      && Unread(t.workers) == total - Min(nproc - 1, total)
  {
    var s := FanOut(total, nproc);
    FanOutAssigns(total, nproc);
    FanOutEstablishes(total, nproc);
    RunKeepsInv(s, sched);
    RunHistory(s, sched);
    Standstill(Run(s, sched).value);
  }

  /** When every worker owns at least two chunks, the counts of the first `m` workers
      add up to at least `2m`. */
  lemma {:induction false} CountUpToAtLeastTwo(owner: seq<nat>, m: nat)
    requires forall v :: 0 <= v < m ==> Count(owner, v) >= 2
    ensures CountUpTo(owner, m) >= 2 * m
  {
    if m > 0 {
      CountUpToAtLeastTwo(owner, m - 1);
    }
  }

  /** With fewer chunks than twice the workers but more chunks than workers, a finished
      run leaves some worker with exactly one chunk, whatever the arrival order: every
      worker is busy after the fan-out, yet not all can be handed a second chunk. */
  lemma SomeWorkerGetsOneChunk(total: nat, nproc: nat, sched: seq<Event>) returns (w: nat)
    requires nproc >= 2 && nproc - 1 < total < 2 * (nproc - 1)
    requires Run(FanOut(total, nproc), sched).Some?
    requires forall e :: !Enabled(Run(FanOut(total, nproc), sched).value, e)
    ensures w < nproc - 1 && Count(Run(FanOut(total, nproc), sched).value.owner, w) == 1
  {
    var s := FanOut(total, nproc);
    FanOutAssigns(total, nproc);
    FanOutEstablishes(total, nproc);
    RunKeepsInv(s, sched);
    RunHistory(s, sched);
    var t := Run(s, sched).value;
    Standstill(t);
    var n := |t.workers|;
    if forall v :: 0 <= v < n ==> Count(t.owner, v) != 1 {
      forall v | 0 <= v < n ensures Count(t.owner, v) >= 2 {
        assert Count(t.owner, v) > 0;
      }
      CountUpToAtLeastTwo(t.owner, n);
      CountUpToAll(t.owner, n);
      assert false;
    }
    w :| 0 <= w < n && Count(t.owner, w) == 1;
  }

  /** With a single process there is no worker: the fan-out sends nothing and the
      coordinator waits for a result that never comes. */
  lemma SingleProcessStalls(total: nat)
    requires total >= 1
    ensures FanOut(total, 1).responseChunks < total
    ensures forall e :: !Enabled(FanOut(total, 1), e)
  {
    FanOutAssigns(total, 1);
  }
}

=== FILE: raster.dfy ===
/** Byte rasters of 24-bit pixels: pixel number `n` occupies bytes `3n`, `3n+1`, `3n+2`,
    holding blue, green and red in that order. */
module Raster {
  import Arith

  /** An unsigned 8-bit value, as `unsigned char`. */
  newtype byte = b: int | 0 <= b < 0x100

  datatype Pixel = Pixel(b: byte, g: byte, r: byte)

  /** A buffer of `size` bytes has room for pixel number `n`. */
  predicate Fits(size: int, n: int)
  {
    0 <= n && 3 * n + 2 < size
  }

  predicate Holds(buf: seq<byte>, n: int)
  {
    Fits(|buf|, n)
  }

  function Get(buf: seq<byte>, n: int): Pixel
    requires Holds(buf, n)
  {
    Pixel(buf[3 * n], buf[3 * n + 1], buf[3 * n + 2])
  }

  /** The three byte stores the renderer performs for one pixel (red first, then green,
      then blue). */
  function Put(buf: seq<byte>, n: int, p: Pixel): (r: seq<byte>)
    requires Holds(buf, n)
    ensures |r| == |buf|
  {
    buf[3 * n + 2 := p.r][3 * n + 1 := p.g][3 * n := p.b]
  }

  /** A store to pixel `n` makes pixel `n` read back as the stored value. */
  lemma PutGet(buf: seq<byte>, n: int, p: Pixel)
    requires Holds(buf, n)
    ensures Get(Put(buf, n, p), n) == p
  {
  }

  /** A store to pixel `n` leaves every other pixel as it was. */
  lemma PutKeepsOthers(buf: seq<byte>, n: int, p: Pixel, m: int)
    requires Holds(buf, n) && Holds(buf, m) && m != n
    ensures Get(Put(buf, n, p), m) == Get(buf, m)
  {
  }

  /** Bytes appended to a buffer leave every pixel it holds readable as before. */
  lemma GetPrefix(buf: seq<byte>, rest: seq<byte>, n: int)
    requires Holds(buf, n)
    ensures Holds(buf + rest, n) && Get(buf + rest, n) == Get(buf, n)
  {
  }

  /** Pixel number of column `x`, row `y` in a raster whose rows are `stride` pixels
      apart. */
  function Offset(stride: int, x: int, y: nat): (r: int)
  {
    x + Arith.Times(y, stride)
  }

  lemma OffsetIsProduct(stride: int, x: int, y: nat)
    ensures Offset(stride, x, y) == x + y * stride
  {
    Arith.TimesIsProduct(y, stride);
  }

  /** Every pixel of a `w` by `h` raster has its slot in `w * h * 3` bytes. */
  lemma OffsetFits(w: nat, h: nat, i: int, j: nat)
    requires 0 <= i < w && j < h
    ensures Fits(w * h * 3, Offset(w, i, j))
  {
    OffsetIsProduct(w, i, j);
    Arith.PixelIndexBound(i, j, w, h);
  }

  /** A store to pixel (x, y) leaves every other pixel (x', y') of the same row layout
      as it was, provided both columns lie inside the stride. */
  lemma StoreElsewhere(buf: seq<byte>, stride: nat, x: nat, y: nat, p: Pixel, x': nat, y': nat)
    requires x < stride && x' < stride && (x, y) != (x', y')
    requires Holds(buf, Offset(stride, x, y)) && Holds(buf, Offset(stride, x', y'))
    ensures Get(Put(buf, Offset(stride, x, y), p), Offset(stride, x', y')) == Get(buf, Offset(stride, x', y'))
  {
    OffsetIsProduct(stride, x, y);
    OffsetIsProduct(stride, x', y');
    Arith.DivModUnique(x, y, stride);
    Arith.DivModUnique(x', y', stride);
    PutKeepsOthers(buf, Offset(stride, x, y), p, Offset(stride, x', y'));
  }
}

=== FILE: scheduler.dfy ===
/** The coordinator/worker chunk scheduler of `createImage`, as a sequential state machine.

    Rank 0 is the coordinator; the worker with MPI rank `r` (1 <= r < nproc) is element
    `r - 1` of `workers`. Each worker keeps one queue per message tag it receives on
    (the transport keeps messages of one sender and tag in order); the result a worker
    posts on tags 2 and 3 is pending exactly while the worker is in `AwaitReply` and
    its status queue is empty. Which pending result the coordinator takes next
    (`MPI_ANY_SOURCE`) is the `Collect` event's free choice of worker. */
module Scheduler {
  import opened Seqs

  /** Where a worker is in its loop. */
  datatype Phase =
    | AwaitFirst             // local isTerminated == 1: blocked on the tag-99 receive
    | AwaitWork              // isTerminated == 0: blocked on the tag-3 chunk receive
    | Working(chunk: nat)    // computing `chunk`; next it posts the result
    | AwaitReply(chunk: nat) // result posted; blocked on the TAG_STATUS_CHECK receive
    | Exited(early: bool)    // left the loop: by the isTerminated break, or by the loop guard

  /** A worker and the messages sent to it that it has not received yet. */
  datatype Worker = Worker(phase: Phase, tag99: seq<int>, tag3: seq<nat>, status: seq<nat>)

  /** The whole system. `owner[c]` is the worker chunk `c` was sent to and `merged`
      lists the chunks the coordinator merged, in arrival order; both are history the
      source does not store but that its counters summarise. */
  datatype Sys = Sys(
    total: nat,           // CHUNK_NUMBER_TOTAL
    chunksSent: nat,
    responseChunks: nat,
    workers: seq<Worker>,
    owner: seq<nat>,
    merged: seq<nat>)

  /** One scheduling decision: the coordinator takes the pending result of worker `w`,
      or worker `w` performs its next action. */
  datatype Event = Collect(w: nat) | Advance(w: nat)

  const Fresh: Worker := Worker(AwaitFirst, [], [], [])

  function Elems(q: seq<nat>): set<nat>
  {
    set x | x in q
  }

  /** State before the fan-out: counters zero, every worker about to read tag 99. */
  function BeforeFanOut(total: nat, nproc: nat): (s: Sys)
    requires nproc >= 1
    ensures |s.workers| == nproc - 1
    ensures s.chunksSent == 0 && s.responseChunks == 0 && s.owner == [] && s.merged == []
    ensures forall w :: 0 <= w < |s.workers| ==> s.workers[w] == Fresh
  {
    Sys(total, 0, 0, seq(nproc - 1, _ => Fresh), [], [])
  }

  /** `sendWork(chunksSent, w + 1)` followed by `chunksSent++`: a 0 on tag 99 and the
      chunk index on tag 3. */
  function SendWork(s: Sys, w: nat): (s': Sys)
    requires w < |s.workers|
    ensures s'.chunksSent == s.chunksSent + 1
    ensures s'.owner == s.owner + [w]
    ensures |s'.workers| == |s.workers|
    ensures s'.workers[w].tag99 == s.workers[w].tag99 + [0]
    ensures s'.workers[w].tag3 == s.workers[w].tag3 + [s.chunksSent]
    ensures s'.workers[w].phase == s.workers[w].phase && s'.workers[w].status == s.workers[w].status
    ensures forall v :: 0 <= v < |s.workers| && v != w ==> s'.workers[v] == s.workers[v]
    ensures s'.total == s.total && s'.responseChunks == s.responseChunks && s'.merged == s.merged
  {
    var wk := s.workers[w];
    s.(workers := s.workers[w := wk.(tag99 := wk.tag99 + [0], tag3 := wk.tag3 + [s.chunksSent])],
       owner := s.owner + [w],
       chunksSent := s.chunksSent + 1)
  }

  /** `sendTermination(w + 1)`: a 1 on tag 99 and nothing else. */
  function SendTermination(s: Sys, w: nat): (s': Sys)
    requires w < |s.workers|
    ensures |s'.workers| == |s.workers|
    ensures s'.workers[w].tag99 == s.workers[w].tag99 + [1]
    ensures s' == s.(workers := s'.workers)
    ensures s'.workers[w] == s.workers[w].(tag99 := s'.workers[w].tag99)
    ensures forall v :: 0 <= v < |s.workers| && v != w ==> s'.workers[v] == s.workers[v]
  {
    var wk := s.workers[w];
    s.(workers := s.workers[w := wk.(tag99 := wk.tag99 + [1])])
  }

  /** The fan-out loop from rank `i` on: work while chunks remain, termination after. */
  function FanOutFrom(s: Sys, i: nat): (r: Sys)
    requires 1 <= i <= |s.workers| + 1
    ensures r.total == s.total && |r.workers| == |s.workers|
    ensures r.responseChunks == s.responseChunks && r.merged == s.merged
    decreases |s.workers| + 1 - i
  {
    if i == |s.workers| + 1 then s
    else
      var s' := if s.chunksSent < s.total then SendWork(s, i - 1) else SendTermination(s, i - 1);
      FanOutFrom(s', i + 1)
  }

  /** The coordinator's fan-out over ranks 1 .. nproc-1. */
  function FanOut(total: nat, nproc: nat): (s: Sys)
    requires nproc >= 1
    ensures s.total == total && |s.workers| == nproc - 1
    ensures s.responseChunks == 0 && s.merged == []
  {
    FanOutFrom(BeforeFanOut(total, nproc), 1)
  }

  function Min(a: nat, b: nat): nat
  {
    if a < b then a else b
  }

  /** What worker `w` holds right after the fan-out. */
  function Initial(total: nat, w: nat): Worker
  {
    if w < total then Worker(AwaitFirst, [0], [w], []) else Worker(AwaitFirst, [1], [], [])
  }

  /** Shape of the state after the fan-out loop has handled ranks 1 .. i-1. */
  ghost predicate FannedOutTo(s: Sys, i: nat)
  {
    && i >= 1
    && s.chunksSent == Min(i - 1, s.total)
    && s.responseChunks == 0 && s.merged == []
    && |s.owner| == s.chunksSent
    && (forall c :: 0 <= c < |s.owner| ==> s.owner[c] == c)
    && (forall w :: 0 <= w < |s.workers| && w < i - 1 ==> s.workers[w] == Initial(s.total, w))
    && (forall w :: 0 <= w < |s.workers| && w >= i - 1 ==> s.workers[w] == Fresh)
  }

  lemma {:induction false} FanOutFromShape(s: Sys, i: nat)
    requires 1 <= i <= |s.workers| + 1
    requires FannedOutTo(s, i)
    ensures FannedOutTo(FanOutFrom(s, i), |s.workers| + 1)
    ensures FanOutFrom(s, i).total == s.total && |FanOutFrom(s, i).workers| == |s.workers|
    decreases |s.workers| + 1 - i
  {
    if i < |s.workers| + 1 {
      var s' := if s.chunksSent < s.total then SendWork(s, i - 1) else SendTermination(s, i - 1);
      assert FannedOutTo(s', i + 1);
      FanOutFromShape(s', i + 1);
    }
  }

  /** Fan-out: worker `w` (rank w+1) is sent chunk `w` when `w < total` and termination
      otherwise; afterwards `chunksSent == min(nproc-1, total)`. */
  lemma FanOutAssigns(total: nat, nproc: nat)
    requires nproc >= 1
    ensures var s := FanOut(total, nproc);
      && s.total == total
      && |s.workers| == nproc - 1
      && s.chunksSent == Min(nproc - 1, total)
      && s.responseChunks == 0 && s.merged == []
      && |s.owner| == s.chunksSent
      && (forall c :: 0 <= c < |s.owner| ==> s.owner[c] == c)
      && (forall w :: 0 <= w < |s.workers| ==>
            s.workers[w] == (if w < total then Worker(AwaitFirst, [0], [w], [])
                             else Worker(AwaitFirst, [1], [], [])))
  {
    FanOutFromShape(BeforeFanOut(total, nproc), 1);
  }

  // ---------------------------------------------------------------------------
  // Steps

  /** The coordinator can take worker `w`'s result: its loop guard holds and `w` has a
      posted, unanswered result. */
  predicate CanCollect(s: Sys, w: nat)
  {
    && s.responseChunks < s.total
    && w < |s.workers|
    && s.workers[w].phase.AwaitReply?
    && s.workers[w].status == []
  }

  /** One iteration of the coordinator loop: receive the result of `w`, reply with
      `chunksSent`, count the response, merge, and re-arm `w` only if chunks remain. */
  function CollectStep(s: Sys, w: nat): (s': Sys)
    requires CanCollect(s, w)
    ensures s'.total == s.total && |s'.workers| == |s.workers|
    ensures s'.responseChunks == s.responseChunks + 1
    ensures s'.merged == s.merged + [s.workers[w].phase.chunk]
    ensures s'.workers[w].status == [s.chunksSent]
    ensures s.chunksSent < s.total ==>
      s'.chunksSent == s.chunksSent + 1 && s'.owner == s.owner + [w]
      && s'.workers[w].tag3 == s.workers[w].tag3 + [s.chunksSent]
      && s'.workers[w].tag99 == s.workers[w].tag99 + [0]
    ensures s.chunksSent >= s.total ==>
      s'.chunksSent == s.chunksSent && s'.owner == s.owner
      && s'.workers[w].tag3 == s.workers[w].tag3 && s'.workers[w].tag99 == s.workers[w].tag99
    ensures s'.workers[w].phase == s.workers[w].phase
    ensures forall v :: 0 <= v < |s.workers| && v != w ==> s'.workers[v] == s.workers[v]
  {
    var wk := s.workers[w];
    var s1 := s.(workers := s.workers[w := wk.(status := wk.status + [s.chunksSent])],
                 responseChunks := s.responseChunks + 1,
                 merged := s.merged + [wk.phase.chunk]);
    if s1.chunksSent < s1.total then
      SendWork(s1, w)
    else s1
  }

  /** Worker `w` has something to do: it is not blocked on an empty queue. */
  predicate CanAdvance(s: Sys, w: nat)
  {
    && w < |s.workers|
    && match s.workers[w].phase
       case AwaitFirst => s.workers[w].tag99 != []
       case AwaitWork => s.workers[w].tag3 != []
       case Working(_) => true
       case AwaitReply(_) => s.workers[w].status != []
       case Exited(_) => false
  }

  /** The next action of worker `w`. */
  function WorkerNext(total: nat, wk: Worker): (r: Worker)
    requires match wk.phase
       case AwaitFirst => wk.tag99 != []
       case AwaitWork => wk.tag3 != []
       case Working(_) => true
       case AwaitReply(_) => wk.status != []
       case Exited(_) => false
    // tag 99 is read only by a worker that has read nothing yet
    ensures r.tag99 != wk.tag99 ==> wk.phase == AwaitFirst && r.tag99 == wk.tag99[1..]
    // no worker ever comes back to reading tag 99
    ensures r.phase != AwaitFirst
    // a first message of 1 ends the worker before it computes or posts anything
    ensures wk.phase == AwaitFirst ==> (r.phase == Exited(true) <==> wk.tag99[0] == 1)
    ensures wk.phase == AwaitFirst && wk.tag99[0] != 1 ==> r.phase == AwaitWork
    ensures wk.phase == AwaitWork ==> r.phase == Working(wk.tag3[0]) && r.tag3 == wk.tag3[1..]
    ensures wk.phase.Working? ==> r.phase == AwaitReply(wk.phase.chunk)
    // the reply decides between another chunk and leaving the loop
    ensures wk.phase.AwaitReply? ==>
      r.status == wk.status[1..] && (r.phase == AwaitWork <==> wk.status[0] < total)
      && (r.phase == Exited(false) <==> wk.status[0] >= total)
  {
    match wk.phase
    case AwaitFirst =>
      if wk.tag99[0] == 1 then wk.(phase := Exited(true), tag99 := wk.tag99[1..])
      else wk.(phase := AwaitWork, tag99 := wk.tag99[1..])
    case AwaitWork => wk.(phase := Working(wk.tag3[0]), tag3 := wk.tag3[1..])
    case Working(c) => wk.(phase := AwaitReply(c))
    case AwaitReply(_) =>
      if wk.status[0] < total then wk.(phase := AwaitWork, status := wk.status[1..])
      else wk.(phase := Exited(false), status := wk.status[1..])
  }

  /** Worker `w` takes its next action; the coordinator's counters, the ownership table,
      the merge history and every other worker are left as they were. */
  function AdvanceStep(s: Sys, w: nat): (s': Sys)
    requires CanAdvance(s, w)
    ensures s'.total == s.total && s'.chunksSent == s.chunksSent && s'.responseChunks == s.responseChunks
    ensures s'.owner == s.owner && s'.merged == s.merged
    ensures |s'.workers| == |s.workers| && s'.workers[w] == WorkerNext(s.total, s.workers[w])
    ensures forall v :: 0 <= v < |s.workers| && v != w ==> s'.workers[v] == s.workers[v]
  {
    s.(workers := s.workers[w := WorkerNext(s.total, s.workers[w])])
  }

  predicate Enabled(s: Sys, e: Event)
  {
    match e
    case Collect(w) => CanCollect(s, w)
    case Advance(w) => CanAdvance(s, w)
  }

  function Step(s: Sys, e: Event): Sys
    requires Enabled(s, e)
  {
    match e
    case Collect(w) => CollectStep(s, w)
    case Advance(w) => AdvanceStep(s, w)
  }
}

=== FILE: seqs.dfy ===
/** Facts about sequences of chunk indices: distinctness, bounds and counting. */
module Seqs {

  /** No index occurs twice in `s`. */
  ghost predicate Distinct(s: seq<nat>)
  {
    forall a, b :: 0 <= a < b < |s| ==> s[a] != s[b]
  }

  /** Every element of `s` is below `n`. */
  ghost predicate AllBelow(s: seq<nat>, n: nat)
  {
    forall a :: 0 <= a < |s| ==> s[a] < n
  }

  /** `s` with the element at position `k` removed. */
  function RemoveAt(s: seq<nat>, k: nat): (r: seq<nat>)
    requires k < |s|
    ensures |r| == |s| - 1
    ensures forall x :: x in r ==> x in s
    ensures forall x :: x in s && x != s[k] && Distinct(s) ==> x in r
  {
    s[..k] + s[k+1..]
  }

  /** Removing one element keeps a sequence distinct. */
  lemma RemoveAtDistinct(s: seq<nat>, k: nat)
    requires k < |s| && Distinct(s)
    ensures Distinct(RemoveAt(s, k))
    ensures s[k] !in RemoveAt(s, k)
  {
    var r := RemoveAt(s, k);
    forall a, b | 0 <= a < b < |r|
      ensures r[a] != r[b]
    {
      var a' := if a < k then a else a + 1;
      var b' := if b < k then b else b + 1;
      assert r[a] == s[a'] && r[b] == s[b'];
    }
  }

  /** Pigeonhole: a distinct sequence of values below `n` that is shorter than `n`
      misses some value below `n`. */
  lemma {:induction false} MissingBelow(s: seq<nat>, n: nat) returns (c: nat)
    requires Distinct(s) && AllBelow(s, n) && |s| < n
    ensures c < n && c !in s
    decreases n
  {
    if n - 1 !in s {
      c := n - 1;
    } else {
      var k :| 0 <= k < |s| && s[k] == n - 1;
      var r := RemoveAt(s, k);
      RemoveAtDistinct(s, k);
      forall a | 0 <= a < |r| ensures r[a] < n - 1 {
        assert r[a] in s && r[a] != n - 1;
      }
      c := MissingBelow(r, n - 1);
    }
  }

  /** A distinct sequence of values below `n` is at most `n` long. */
  lemma {:induction false} DistinctBelowLength(s: seq<nat>, n: nat)
    requires Distinct(s) && AllBelow(s, n)
    ensures |s| <= n
    decreases n
  {
    if |s| > 0 {
      if n - 1 in s {
        var k :| 0 <= k < |s| && s[k] == n - 1;
        var r := RemoveAt(s, k);
        RemoveAtDistinct(s, k);
        forall a | 0 <= a < |r| ensures r[a] < n - 1 {
          assert r[a] in s && r[a] != n - 1;
        }
        DistinctBelowLength(r, n - 1);
      } else {
        assert s[0] < n;
        forall a | 0 <= a < |s| ensures s[a] < n - 1 {
          assert s[a] in s;
        }
        DistinctBelowLength(s, n - 1);
      }
    }
  }

  /** A distinct sequence of `n` values below `n` contains every value below `n`. */
  lemma CoversAll(s: seq<nat>, n: nat)
    requires Distinct(s) && AllBelow(s, n) && |s| == n
    ensures forall c: nat :: c < n ==> c in s
  {
    forall c: nat | c < n ensures c in s {
      if c !in s {
        var t: seq<nat> := s + [c];
        forall a, b | 0 <= a < b < |t| ensures t[a] != t[b] {
          if b == |s| { assert t[a] == s[a] && s[a] in s; }
        }
        DistinctBelowLength(t, n);
      }
    }
  }

  /** Number of occurrences of `x` in `s`. */
  function Count(s: seq<nat>, x: nat): (n: nat)
    ensures n <= |s|
    ensures n == 0 <==> x !in s
  {
    if s == [] then 0
    else Count(s[..|s|-1], x) + (if s[|s|-1] == x then 1 else 0)
  }

  /** Sum over ranks `r < m` of the occurrences of `r` in `s`. */
  function CountUpTo(s: seq<nat>, m: nat): nat
  {
    if m == 0 then 0 else CountUpTo(s, m - 1) + Count(s, m - 1)
  }

  /** Summing occurrence counts over every possible value counts every element once. */
  lemma {:induction false} CountUpToAll(s: seq<nat>, m: nat)
    requires AllBelow(s, m)
    ensures CountUpTo(s, m) == |s|
    decreases |s|
  {
    if s != [] {
      var p := s[..|s|-1];
      var x := s[|s|-1];
      assert AllBelow(p, m);
      CountUpToAll(p, m);
      CountUpToAppend(p, x, m);
      assert s == p + [x];
    } else {
      CountUpToEmpty(m);
    }
  }

  lemma {:induction false} CountUpToEmpty(m: nat)
    ensures CountUpTo([], m) == 0
  {
    if m > 0 { CountUpToEmpty(m - 1); }
  }

  lemma {:induction false} CountUpToAppend(p: seq<nat>, x: nat, m: nat)
    ensures CountUpTo(p + [x], m) == CountUpTo(p, m) + (if x < m then 1 else 0)
  {
    if m > 0 {
      CountUpToAppend(p, x, m - 1);
      assert (p + [x])[..|p + [x]|-1] == p;
    }
  }
}

=== FILE: wrappers.dfy ===
/** Failure-carrying wrappers used by the model's partial operations. */
module Wrappers {

  /** A value that may be absent. */
  datatype Option<+T> = None | Some(value: T)

  /** Either a value or the reason no value could be produced. */
  datatype Result<+R, +E> = Ok(value: R) | Err(error: E)
}
